=== FILE: README.md ===
# Canton Store front end: the pure rules, in Dafny

This project models the decision and aggregation rules of the Canton Store
React front end, and proves properties about them. Those rules are:

- the session held by `AuthProvider`;
- the login page's reading of the server reply;
- the admin dashboard's statistics and its optimistic status update;
- the catalogue filter;
- the values the product page and the product card derive from a product;
- the profile page's order-ownership filter;
- the checkout payload;
- the navbar's menu and search;
- the confirmation countdown;
- the shared filter state.

Every React component becomes a pure function over immutable datatypes:

- A state update becomes a function from the old state to the new one.
- `localStorage` is a `map<string, string>`.
- A network reply is a datatype parameter covering success, the failure
  shapes, or an exception.
- The byte decoding inside `atob`, the `JSON.parse` of a token payload,
  `JSON.stringify` and `encodeURIComponent` are function parameters.
- The cart engine is outside the model. Its cart lines are given values,
  its `addToCart` is a function parameter, and `clearCart` is recorded as
  "called or not".

Modules, one per source file plus shared helpers:

| module | models |
|---|---|
| `Wrappers` | `Option` |
| `JsText` | `String.prototype.trim`, ASCII `toLowerCase`, `includes`, `indexOf`, first-letter capitalisation |
| `Sequences` | `filter`, `slice(0, n)`, `find`, counting, subsequences |
| `Storefront` | products, categories, images, orders, reviews and cart lines, in each shape the pages accept |
| `Session` | `context/AuthContext.jsx` |
| `Filters` | `context/FiltersContext.jsx` and the products page's URL-parameter effect |
| `LoginPage` | `pages/Login.jsx` |
| `Dashboard` | `pages/Dashboard.jsx` |
| `ProductsPage` | `pages/Products.jsx` |
| `ProductDetailsPage` | `pages/ProductDetails.jsx` |
| `ProductCard` | `components/ProductCard.jsx` |
| `ProfilePage` | `pages/Profile.jsx` |
| `CheckOutPage` | `pages/CheckOut.jsx` |
| `Navbar` | `components/Navbar.jsx` |
| `ConfirmationPage` | `pages/Confirmation.jsx` |

JavaScript semantics the model spells out:

- Truthiness: the empty string is falsy, and an array or object is truthy
  even when empty.
- `??` differs from `||`: `??` selects an empty string instead of skipping it.
- `typeof null === "object"`.
- `undefined === undefined`.
- `String(object)` is `"[object Object]"`.
- A closure captures the state value current when it was created.
- `atob` accepts exactly what the forgiving-base64 decode of the WHATWG
  Infra standard accepts:
  - ASCII whitespace is removed;
  - one or two trailing `=` are dropped when the length is a multiple of 4;
  - a length of 1 mod 4 is refused;
  - any character outside `A-Z a-z 0-9 + /` is refused.

  So a JWT payload (RFC 7519) written in the base64url alphabet of section 5
  of RFC 4648 fails to decode whenever it contains `-` or `_`. A token
  without a dot hands `"undefined"` to `atob`, which refuses it.

The product card reads only the first element of an `imageUrl` array
(`front-end/src/components/ProductCard.jsx:54-56`). An array whose first
element is empty therefore falls through to the legacy `images`, even when
a later element is a usable URL. `ProductCard.ImageSource` models that.

## Model

| member | source | states |
|---|---|---|
| JsText.Trim | front-end/src/components/Navbar.jsx:39 | the result neither starts nor ends with JavaScript whitespace, and is an infix of the input whose cut-away prefix and suffix are all whitespace |
| JsText.TrimIdempotent | front-end/src/components/Navbar.jsx:39 | trimming an already trimmed term changes nothing |
| JsText.TrimEmptyIffBlank | front-end/src/pages/ProductDetails.jsx:41 | `s.trim() !== ''` holds exactly when `s` has a non-whitespace character |
| JsText.ToLower | front-end/src/pages/Products.jsx:54 | lower-casing keeps the length and maps every ASCII capital to its small letter, leaving other characters alone |
| JsText.Capitalize | front-end/src/pages/Dashboard.jsx:928 | the first character upper-cased and the rest lower-cased, for ASCII letters |
| JsText.CapitalizeIdempotent | front-end/src/pages/Dashboard.jsx:928 | capitalising a capitalised string changes nothing |
| JsText.CapitalizeMatchesLower | front-end/src/pages/Dashboard.jsx:928 | for a lower-case word `w`, capitalising `s` gives the capitalised `w` exactly when `s` lower-cases to `w` |
| JsText.IncludesIffOccurs | front-end/src/pages/Products.jsx:54 | `includes` holds exactly when the needle occurs at some position of the haystack |
| Sequences.Filter | front-end/src/pages/Products.jsx:53 | the kept elements form an order-preserving subsequence, all satisfy the predicate, and each value satisfying it occurs as often as in the input (others not at all) |
| Sequences.Prefix | front-end/src/pages/ProductDetails.jsx:88 | `slice(0, n)` keeps the first `min(n, length)` elements, in order |
| Sequences.FirstKept | front-end/src/pages/ProductDetails.jsx:85-88 | `filter(keep).slice(0, k)` is what the filter keeps from some prefix of the input: an order-preserving subsequence of kept elements, as many as are kept up to `k`, all of them when fewer |
| Sequences.FilterPrefixCut | front-end/src/pages/ProductDetails.jsx:85-88 | the first `k` elements a filter keeps are what it keeps from some prefix of the input |
| Sequences.Find | front-end/src/pages/ProductDetails.jsx:283 | `find` returns the first element satisfying the predicate, or nothing exactly when none does |
| Sequences.Count | front-end/src/pages/Dashboard.jsx:45 | the count of elements satisfying a predicate is the length of their filter, at most the length, and 0 exactly when no element satisfies it |
| Storefront.FindCategory | front-end/src/pages/ProductDetails.jsx:283 | the category found is the first one in the list with the id looked for; nothing is found exactly when no category has it |
| Storefront.MeanRating | front-end/src/pages/ProductDetails.jsx:304 | the mean of a non-empty list of ratings times their number is their sum, and it lies between any bounds all the ratings lie between |
| Session.GetOrEmpty | front-end/src/context/AuthContext.jsx:6-7 | `getItem(k) \|\| ''`: the stored value, or `''` when the key is absent |
| Session.SecondField | front-end/src/context/AuthContext.jsx:12 | `split('.')[1]` is absent exactly when the token has no dot, and never contains a dot |
| Session.SecondFieldOfToken | front-end/src/context/AuthContext.jsx:12 | for a `header.payload.signature` token with dot-free parts, the field is the payload |
| Session.StripAsciiWhitespace | front-end/src/context/AuthContext.jsx:12 | the input with its ASCII whitespace removed: an order-preserving subsequence, holding every other character exactly as often as the input |
| Session.DropPadding | front-end/src/context/AuthContext.jsx:12 | a prefix of the input, shorter only when the length is a multiple of 4, cutting at most two characters, all `=`, and as many trailing `=` as that allows |
| Session.UndefinedRejected | front-end/src/context/AuthContext.jsx:12 | `atob("undefined")` throws |
| Session.UnpaddedLengthRejected | front-end/src/context/AuthContext.jsx:12 | `atob` throws on a segment with no whitespace whose length leaves remainder 1 modulo 4 |
| Session.Base64UrlRejected | front-end/src/context/AuthContext.jsx:12 | `atob` throws on any segment containing `-` or `_` |
| Session.DecodeClaims | front-end/src/context/AuthContext.jsx:11-16 | the decode fails for a token without a dot and for a segment `atob` refuses; otherwise its claims are the payload parser's result |
| Session.DeriveUser | front-end/src/context/AuthContext.jsx:39-44 | the user carries the given id and exactly the claims the decode gives, none when it fails |
| Session.Init | front-end/src/context/AuthContext.jsx:6-17 | token and user id are the stored values or `''`; there is a user exactly when a token is stored; the user agrees with the token |
| Session.Login | front-end/src/context/AuthContext.jsx:35-46 | token and user id become the arguments or `''`; a falsy token keeps the previous user; a truthy one derives the user from it |
| Session.Logout | front-end/src/context/AuthContext.jsx:48-52 | token and user id are empty and there is no user, so neither `isLoggedIn` nor `isAdmin` holds |
| Session.Persist | front-end/src/context/AuthContext.jsx:19-33 | non-empty token and user id are written; empty ones remove their key; every other key is untouched |
| Session.ReloadRestoresConsistent | front-end/src/context/AuthContext.jsx:6-33 | persisting a state whose user agrees with its token and starting again gives that state back |
| Session.LoginKeepsConsistency | front-end/src/context/AuthContext.jsx:35-46 | a login with a truthy token gives a logged-in state whose user agrees with the token |
| Session.LoginAdminIff | front-end/src/context/AuthContext.jsx:39-59 | after a login with a truthy token, `isAdmin` holds exactly when the payload decodes to the admin email and role |
| Session.Base64UrlPayloadNotAdmin | front-end/src/context/AuthContext.jsx:40-43 | a base64url payload lands in the catch branch: the user has the id only and is not admin |
| Session.FalsyLoginKeepsAdmin | front-end/src/context/AuthContext.jsx:36-59 | a login with a falsy token is not logged in, yet `isAdmin` is unchanged |
| Session.FalsyLoginInconsistent | front-end/src/context/AuthContext.jsx:36-45 | a user kept by a falsy login disagrees with the empty token and is gone after a reload |
| Session.LogoutThenReload | front-end/src/context/AuthContext.jsx:19-52 | after logout both keys are removed and a reload starts anonymous |
| Session.NoStoredTokenIsAnonymous | front-end/src/context/AuthContext.jsx:8-10 | with no stored token there is no user, no login and no admin |
| Filters.SetSearchTerm | front-end/src/context/FiltersContext.jsx:6-16 | sets the search term and leaves the category alone |
| Filters.SetSelectedCategory | front-end/src/context/FiltersContext.jsx:7-18 | sets the category and leaves the search term alone |
| Filters.ClearFilters | front-end/src/context/FiltersContext.jsx:9-12 | both fields become empty |
| Filters.ClearIsInitialAndIdempotent | front-end/src/context/FiltersContext.jsx:6-12 | clearing gives the initial state, and clearing twice is clearing once |
| Filters.SettersCommute | front-end/src/context/FiltersContext.jsx:6-7 | setting the term and setting the category commute |
| Filters.ApplySearchParam | front-end/src/pages/Products.jsx:44-50 | a non-empty URL `search` value replaces the term; an empty one changes nothing; the category is never touched |
| LoginPage.FirstNonNullish | front-end/src/pages/Login.jsx:48-61 | `a ?? b ?? …` is the first field that is neither null nor undefined, and is a string exactly when some field is |
| LoginPage.Validate | front-end/src/pages/Login.jsx:27-36 | no request exactly when email or password, or the name in sign-up mode, is empty; otherwise the endpoint and body of the mode |
| LoginPage.Interpret | front-end/src/pages/Login.jsx:47-83 | no new request; a rejected reply sets the first truthy of `response.data.message`, `message` and the fixed fallback; an answer with truthy token and user id logs in with them once, goes home and sets the success message of the mode; no token sets the no-token error; a token without user id sets the server message or the prefixed dump |
| LoginPage.HandleSubmit | front-end/src/pages/Login.jsx:19-87 | a failed validation sets the required-fields error and does nothing else; otherwise the request is sent and the reply interpreted |
| LoginPage.MissingFieldSendsNothing | front-end/src/pages/Login.jsx:27-31 | a missing field sends no request, calls no `login` and sets "All fields are required" |
| LoginPage.SuccessLogsInOnce | front-end/src/pages/Login.jsx:64-68 | a truthy token and user id call `login` once with exactly them and go to `/home` |
| LoginPage.EmptyTokenShadowsAccessToken | front-end/src/pages/Login.jsx:48-75 | an empty `token` is selected over a valid `accessToken`, and the login is refused with the no-token error |
| LoginPage.TokenWithoutUserId | front-end/src/pages/Login.jsx:78-79 | a token without user id calls no `login` and shows the server message if any, else a message starting with the fixed prefix and at most 300 characters longer |
| LoginPage.SubmitThenSession | front-end/src/pages/Login.jsx:64-68 | after a successful submit the session is logged in with the returned token and user id; otherwise it is unchanged |
| Dashboard.TotalRevenue | front-end/src/pages/Dashboard.jsx:36-42 | revenue is non-negative when amounts are, and zero when no order is delivered |
| Dashboard.RevenueIsDeliveredSum | front-end/src/pages/Dashboard.jsx:36-42 | revenue equals the sum of the amounts of the delivered orders, a missing amount counting 0 |
| Dashboard.StatusCount | front-end/src/pages/Dashboard.jsx:45-49 | the count for a status is the length of the filter keeping the orders whose lower-cased status is that word |
| Dashboard.Counts | front-end/src/pages/Dashboard.jsx:45-49 | each of the five cards is the number of orders whose lower-cased status is its word |
| Dashboard.CountsAtMostOrders | front-end/src/pages/Dashboard.jsx:45-49 | the five cards add up to at most the number of orders, and to 0 when no order has a status |
| Dashboard.DeliveredCardMatchesRevenue | front-end/src/pages/Dashboard.jsx:36-48 | the delivered card counts exactly the orders revenue is taken from |
| Dashboard.ActiveOrders | front-end/src/pages/Dashboard.jsx:478 | the sidebar's "Active Orders" is the number of orders whose status is exactly `Pending` or `Processing`, each as often as it occurs, and 0 exactly when there is none |
| Dashboard.ActiveOrdersIgnoringCase | front-end/src/pages/Dashboard.jsx:478 | the corrected count: the orders whose lower-cased status is `pending` or `processing`, and 0 exactly when there is none |
| Dashboard.ActiveAtMostIgnoringCase | front-end/src/pages/Dashboard.jsx:478 | the sidebar never counts more than the corrected count |
| Dashboard.ActiveIgnoringCaseIsCards | front-end/src/pages/Dashboard.jsx:478 | the corrected count equals the pending card plus the processing card |
| Dashboard.ActiveAtMostPendingProcessing | front-end/src/pages/Dashboard.jsx:478 | for every order list, the sidebar's active orders are at most the pending card plus the processing card |
| Dashboard.LowerNeverActiveLabel | front-end/src/pages/Dashboard.jsx:246 | no lower-cased string is `Pending` or `Processing` |
| Dashboard.LowerCaseStatusNotActive | front-end/src/pages/Dashboard.jsx:478 | an order whose status is already lower case is never an active order |
| Dashboard.SentStatusNeverActive | front-end/src/pages/Dashboard.jsx:246 | the status a status change sends is never `Pending` or `Processing`, so the sidebar does not count it |
| Dashboard.ActiveOrdersCaseSensitive | front-end/src/pages/Dashboard.jsx:478 | an order stored as `pending` is on the pending card and in the corrected count, but not among the sidebar's active orders, so the bound above can be strict |
| Dashboard.LabelCapitalizesWord | front-end/src/pages/Dashboard.jsx:1330-1347 | each drop-down label is its lower-case status word capitalised |
| Dashboard.DisplayStatusShowsLabel | front-end/src/pages/Dashboard.jsx:1330-1347 | the drop-down shows a label exactly when the status lower-cases to that label's word |
| Dashboard.MarkStatus | front-end/src/pages/Dashboard.jsx:240 | the optimistic step changes only the status of orders with the id; other orders and fields, and the order of the list, stay |
| Dashboard.ReplaceOrders | front-end/src/pages/Dashboard.jsx:250-255 | orders with the id are replaced by the given one; all others stay in place |
| Dashboard.HandleStatusChange | front-end/src/pages/Dashboard.jsx:235-260 | an unknown id changes nothing; other orders never change; a status, lower-cased, is sent exactly when the order exists and a token is stored; no token or a failed update puts the original order back; a saved order replaces it; a save without order keeps the optimistic list |
| Dashboard.RollbackOverridesMark | front-end/src/pages/Dashboard.jsx:240-255 | rolling back after the optimistic step is the same as rolling back directly |
| Dashboard.ReplaceWithFoundIsIdentity | front-end/src/pages/Dashboard.jsx:236-255 | with unique ids, putting the found order back restores the list |
| Dashboard.FailedUpdateRollsBack | front-end/src/pages/Dashboard.jsx:253-255 | with unique ids, a failed update leaves the list as it was before the call |
| Dashboard.DuplicateIdsBreakRollback | front-end/src/pages/Dashboard.jsx:255 | with two orders sharing an id, the rollback does not restore the list |
| Dashboard.SavedWithoutOrderKeepsOptimistic | front-end/src/pages/Dashboard.jsx:250-252 | a reply without an order keeps the optimistic list |
| Dashboard.EditForm | front-end/src/pages/Dashboard.jsx:221-232 | the edit form copies name, price and stock, takes the populated category's id or `''`, and copies the description, `undefined` when the product has none |
| Dashboard.HandleProductSubmit | front-end/src/pages/Dashboard.jsx:151-202 | a falsy required field sets the error and sends nothing; a request goes out exactly when the fields are filled and a token is stored; the no-token case sets "No authentication token found. Please login again." and keeps the form; a saved request sets "Product updated successfully!" or "Product created successfully!" by mode and resets the form; a failed one sets the server message or "Failed to create/update product" and keeps the form, the edit id and an empty message |
| Dashboard.EditedFormValidIff | front-end/src/pages/Dashboard.jsx:156-228 | an edited product can be resubmitted unchanged exactly when its name is non-empty, its price and stock non-zero and its category a populated object with an id |
| Dashboard.DeleteProduct | front-end/src/pages/Dashboard.jsx:204-218 | on success the products with other ids remain, in order, each as often as before, and none with the id; on failure the list is unchanged |
| Dashboard.DeleteIdempotent | front-end/src/pages/Dashboard.jsx:210 | deleting an id twice is deleting it once |
| Dashboard.StockLabel | front-end/src/pages/Dashboard.jsx:1124-1126 | "In Stock" above 10, "Low Stock" from 1 to 10, "Out of Stock" otherwise, each an if-and-only-if |
| ProductsPage.CategoryMatchAsWritten | front-end/src/pages/Products.jsx:56-59 | an empty selection matches; a `null` category throws exactly when a category is selected |
| ProductsPage.FilterProductsAsWritten | front-end/src/pages/Products.jsx:53-61 | the filter throws exactly when a category is selected and some product's category is `null` |
| ProductsPage.NullCategoryThrows | front-end/src/pages/Products.jsx:57-58 | one product with a `null` category makes the filter throw once a category is selected |
| ProductsPage.FilterProducts | front-end/src/pages/Products.jsx:53-61 | the shown products are an order-preserving subsequence, each matching search and category, every matching product shown as often as it is listed |
| ProductsPage.AsWrittenAgrees | front-end/src/pages/Products.jsx:53-61 | wherever the filter as written does not throw, it gives the same list as the corrected one |
| ProductsPage.EmptySearchMatches | front-end/src/pages/Products.jsx:54 | an empty search term matches every product |
| ProductsPage.NoFiltersShowsAll | front-end/src/pages/Products.jsx:53-61 | with no term and no category the whole catalogue is shown |
| ProductsPage.SearchIgnoresCase | front-end/src/pages/Products.jsx:54-55 | the search gives the same answer for a term and its lower-cased form |
| ProductDetailsPage.ProductImages | front-end/src/pages/ProductDetails.jsx:36-46 | no product gives no images; an `imageUrl` array gives its non-empty strings in order, each as often as it occurs, with no fallback; a non-blank string gives itself alone; otherwise the truthy legacy images in order, each as often as it occurs |
| ProductDetailsPage.UrlGallery | front-end/src/pages/ProductDetails.jsx:40 | `imageUrl.filter(Boolean)`: the non-empty strings in order, each as often as it occurs |
| ProductDetailsPage.EmptyUrlListHidesImages | front-end/src/pages/ProductDetails.jsx:39-40 | an empty `imageUrl` array gives an empty gallery whatever the legacy images |
| ProductDetailsPage.Decrement | front-end/src/pages/ProductDetails.jsx:359 | the minus button steps down by one from above 1 and gives 1 otherwise |
| ProductDetailsPage.Increment | front-end/src/pages/ProductDetails.jsx:368 | the plus button never exceeds the stock, steps up by one below it, and stops at the stock otherwise |
| ProductDetailsPage.StepperStaysInRange | front-end/src/pages/ProductDetails.jsx:57-368 | with stock on hand, any sequence of presses from the initial 1 keeps the quantity within 1 and the stock |
| ProductDetailsPage.PressKeepsRange | front-end/src/pages/ProductDetails.jsx:359-368 | any sequence of presses keeps a quantity within 1 and the stock |
| ProductDetailsPage.IncrementOutOfStock | front-end/src/pages/ProductDetails.jsx:368 | with stock below 1, the plus button drops the quantity to the stock, below 1 |
| ProductDetailsPage.CategoryObjectId | front-end/src/pages/ProductDetails.jsx:87 | `category?._id` is defined only for a populated category |
| ProductDetailsPage.RelatedProductsAsWritten | front-end/src/pages/ProductDetails.jsx:85-88 | an order-preserving subsequence of the catalogue: what the callback as written accepts from some prefix of it, as many as it accepts up to four |
| ProductDetailsPage.StringCategoriesAlwaysRelated | front-end/src/pages/ProductDetails.jsx:86-87 | two products with different bare category ids count as related as written, though they share no category |
| ProductDetailsPage.CategoryKey | front-end/src/pages/ProductDetails.jsx:87 | a bare id designates itself, a populated object its `_id`; nothing else designates a category |
| ProductDetailsPage.RelatedProducts | front-end/src/pages/ProductDetails.jsx:85-88 | what `Related` accepts from some prefix of the catalogue, as many as there are up to four, all of them when fewer than four; never the product itself |
| ProductDetailsPage.AsWrittenAgreesOnPopulated | front-end/src/pages/ProductDetails.jsx:86-87 | for populated categories with ids, the callback as written selects exactly the related products |
| ProductDetailsPage.AverageRating | front-end/src/pages/ProductDetails.jsx:303-305 | 5 with no reviews; otherwise the mean: times the number of reviews it is their sum, and it lies between any bounds the ratings lie between |
| ProductDetailsPage.HandleAddToCart | front-end/src/pages/ProductDetails.jsx:123-126 | `addToCart(product)` is called exactly `quantity` times (none for a quantity below 1), and the cart is the result of those calls in turn |
| ProductDetailsPage.CategoryLabel | front-end/src/pages/ProductDetails.jsx:277-287 | an object's name, or "Uncategorized"; for a non-blank id the found category's name, or "Category" when none is found or it has no name; "Uncategorized" otherwise; never empty |
| ProductDetailsPage.StockMessage | front-end/src/pages/ProductDetails.jsx:333-342 | "n in stock" exactly when stock is positive, "Out of stock" exactly when it is 0 |
| ProductDetailsPage.NegativeStockStillAddable | front-end/src/pages/ProductDetails.jsx:379 | a negative stock shows no stock line and leaves the add button enabled |
| ProductCard.ReviewCount | front-end/src/components/ProductCard.jsx:10-13 | a stored `ratingsQuantity` is used; otherwise the review list's length, 0 exactly when there is no review |
| ProductCard.AverageRating | front-end/src/components/ProductCard.jsx:15-24 | a positive stored average is used; otherwise the reviews' mean (times their number it is their sum, within the ratings' bounds), or 0 with none |
| ProductCard.AverageNeverNegative | front-end/src/components/ProductCard.jsx:15-24 | with ratings between 0 and 5, the card's rating is never negative, and at most 5 unless a stored average exceeds 5 |
| ProductCard.CardAndPageDisagreeWithoutReviews | front-end/src/components/ProductCard.jsx:15-24 | with no reviews and no stored average the card shows 0 where the product page shows 5 |
| ProductCard.ImageSource | front-end/src/components/ProductCard.jsx:52-71 | never empty: the `imageUrl` choice first; else from `images[0]` its `img_url`, `"[object Object]"` for an object without one, or the string; else the placeholder |
| ProductCard.FromImageUrl | front-end/src/components/ProductCard.jsx:54-61 | the `imageUrl` branch returns a value exactly for an array whose first element is non-empty or a non-blank string |
| ProductCard.EmptyUrlListFallsThrough | front-end/src/components/ProductCard.jsx:54-68 | an empty `imageUrl` array falls through to the legacy image on the card, while the product page shows none |
| ProductCard.CategoryLabel | front-end/src/components/ProductCard.jsx:102-116 | an object's name or "Uncategorized"; for an id, the name of the category `find` returns when it has one, else "Uncategorized"; "Uncategorized" otherwise |
| ProductCard.NeverShowsRawId | front-end/src/components/ProductCard.jsx:109-113 | a bare id no category is named after is never shown |
| ProductCard.UnresolvedIdLabels | front-end/src/components/ProductCard.jsx:109-115 | for an unresolved non-blank id the card shows "Uncategorized" where the product page shows "Category" |
| ProductCard.StockBadge | front-end/src/components/ProductCard.jsx:85-94 | "Out of Stock" exactly at 0, "Low Stock" exactly from 1 to 5, no badge otherwise |
| ProductCard.AddDisabledIffOutOfStock | front-end/src/components/ProductCard.jsx:154 | the add button is disabled exactly when the badge says "Out of Stock" |
| ProductCard.CardAndDashboardThresholds | front-end/src/components/ProductCard.jsx:90 | a stock of 6 to 10 has no badge on the card while the dashboard calls it "Low Stock" |
| ProfilePage.DerivedEmail | front-end/src/pages/Profile.jsx:34-39 | `''` when the decode fails; a non-empty email is the payload's email |
| ProfilePage.DerivedEmailMatchesSession | front-end/src/pages/Profile.jsx:34-39 | the profile's email is the email of the user the session derives from the same stored token |
| ProfilePage.UserString | front-end/src/pages/Profile.jsx:44 | `String(user)` is an id string itself and `"[object Object]"` for a populated document |
| ProfilePage.UserFieldDecides | front-end/src/pages/Profile.jsx:44 | an order with a truthy user is kept exactly when `String(user)` is the user id |
| ProfilePage.ShippingEmailDecides | front-end/src/pages/Profile.jsx:45-46 | an order without a user is kept exactly when its shipping email equals the non-empty email compared against |
| ProfilePage.OwnedOrders | front-end/src/pages/Profile.jsx:43-47 | an order-preserving subsequence of `data \|\| []` holding exactly the owned orders, each as often as listed |
| ProfilePage.LoadAsWritten | front-end/src/pages/Profile.jsx:17-48 | redirect to `/login` exactly when token or user id is missing; otherwise the orders are filtered against the initial guest email |
| ProfilePage.Load | front-end/src/pages/Profile.jsx:23-48 | redirect exactly when token or user id is missing; otherwise the user has the stored id and derived email, and the orders are filtered against that email |
| ProfilePage.StaleEmailHidesOwnOrder | front-end/src/pages/Profile.jsx:17-46 | an order without user shipped to the signed-in user's own email is dropped as written and kept when the derived email is used |
| ProfilePage.GuestOrdersShownToEveryone | front-end/src/pages/Profile.jsx:17-46 | as written, an order without user shipped to `guest@example.com` is shown to every signed-in user |
| ProfilePage.StatusColor | front-end/src/pages/Profile.jsx:90-105 | gray exactly for a missing status or one whose lower-case form is none of the five status words |
| ProfilePage.StatusColorIgnoresCase | front-end/src/pages/Profile.jsx:91 | two statuses with the same lower-case form get the same colour |
| ProfilePage.ColouredIffCounted | front-end/src/pages/Profile.jsx:90-105 | a status gets its own colour exactly when the dashboard counts it on one of its five cards |
| CheckOutPage.HandleChange | front-end/src/pages/CheckOut.jsx:33-35 | the named field takes the typed value and every other field stays |
| CheckOutPage.ChoosePayment | front-end/src/pages/CheckOut.jsx:24 | "COD" until a radio button is clicked, then the last one clicked |
| CheckOutPage.PaymentNameKnown | front-end/src/pages/CheckOut.jsx:251-278 | the payment method sent is always "COD" or "Credit Card", and "COD" without a click |
| CheckOutPage.ItemImage | front-end/src/pages/CheckOut.jsx:50 | the first image's `img_url` or `''`; `''` for no images or a string first image |
| CheckOutPage.ToOrderItem | front-end/src/pages/CheckOut.jsx:48-52 | the entry copies name, quantity as `qty`, price and id as `product` |
| CheckOutPage.OrderItems | front-end/src/pages/CheckOut.jsx:47-53 | one entry per cart line, in cart order, each built from its line |
| CheckOutPage.OrderItemsAppend | front-end/src/pages/CheckOut.jsx:47-53 | the entries of two carts joined are the two entry lists joined |
| CheckOutPage.ShippingOf | front-end/src/pages/CheckOut.jsx:55-62 | the address carries address, city, postal code, country, email and full name from the form |
| CheckOutPage.BuildPayload | front-end/src/pages/CheckOut.jsx:45-65 | items from the cart, `totalprice` equal to the given total, the form's address, the chosen method, and a `user` exactly when a stored user id is truthy |
| CheckOutPage.PhoneNotSent | front-end/src/pages/CheckOut.jsx:55-62 | changing the phone field never changes the payload |
| CheckOutPage.HandleOrder | front-end/src/pages/CheckOut.jsx:38-82 | the order counts as placed, and `clearCart` is called, exactly when the reply has a truthy `_id`; otherwise one of the two error messages is set |
| Navbar.HandleSearch | front-end/src/components/Navbar.jsx:37-42 | the trimmed term is stored, the category kept; the route is `/products` exactly when the term is empty, else `/products?search=` plus the encoded term |
| Navbar.SearchAgainIsStable | front-end/src/components/Navbar.jsx:39-40 | submitting the stored term again changes neither the state nor the route |
| Navbar.SearchRoundTrip | front-end/src/components/Navbar.jsx:41 | when decoding undoes encoding, the products page reads back the term the navbar stored |
| Navbar.Menu | front-end/src/components/Navbar.jsx:143-191 | Login exactly when logged out; Dashboard exactly when logged in and admin; Profile first and Logout last when logged in |
| Navbar.HandleLogout | front-end/src/components/Navbar.jsx:32-35 | after logout neither `isLoggedIn` nor `isAdmin` holds, and the route is `/login` |
| Navbar.LogoutShowsLogin | front-end/src/components/Navbar.jsx:143-191 | after logging out the menu is Login alone |
| Navbar.StaleAdminSeesLogin | front-end/src/components/Navbar.jsx:143-191 | after a login without token the menu is Login alone, even for a kept admin user |
| Navbar.CartBadge | front-end/src/components/Navbar.jsx:124-127 | a badge exactly when the cart has a line, showing the number of lines |
| Navbar.BadgeCountsLines | front-end/src/components/Navbar.jsx:124-127 | two lines show 2 whatever their quantities |
| ConfirmationPage.TickStep | front-end/src/pages/Confirmation.jsx:11-17 | a tick navigates exactly when the previous value is at most 1; the next value is never negative, one less above 1 and 0 otherwise |
| ConfirmationPage.CountdownValue | front-end/src/pages/Confirmation.jsx:6-17 | after `k` ticks from 5 the countdown is `5 - k`, and 0 from the fifth tick on |
| ConfirmationPage.FirstNavigationOnFifthTick | front-end/src/pages/Confirmation.jsx:6-17 | the countdown is never negative and a tick navigates exactly from the fifth tick on |
| ConfirmationPage.GuestPromptIffLoggedOut | front-end/src/pages/Confirmation.jsx:23 | the sign-up prompt shows exactly when the session started from the same store is not logged in |

## Left out

- The cart engine (`CartContext`) is not part of this model. Cart lines are given values, `addToCart` is a function parameter and `clearCart` is a flag in the outcome.
- Dashboard.HandleProductSubmit: the form's image files are not modelled. The source appends them to the request (Dashboard.jsx:174-176) and resets them to `[]` with the rest of the form (Dashboard.jsx:190). They are browser `File` objects that only pass through to the request.
- ProductDetailsPage.HandleAddToCart: the cart result assumes each `addToCart` call acts on the cart left by the previous call, as a functional state update does. `CartContext` is not part of this model; if its setter instead closed over the `cartItems` of the render, the `quantity` calls would collapse to the last one, and only the call count would still hold.
- Network requests are replaced by reply datatypes: success, the failure shapes the pages read, or an exception.
- React rendering, hooks and effect ordering are left out. Each page is the function from its inputs to the state values it sets.
- Timers are left out: the success-message timeouts, the delayed navigation after checkout, and the interval behind the countdown. Only the tick function is modelled.
- Floating point and formatting are left out: `toLocaleString`, `Intl.NumberFormat`, `toFixed`, and the `Math.round` that picks the number of filled stars. Money is `int` and ratings are `real`.
- The dashboard's random growth figures and `averageOrderValue` are left out, since they are random or rounded.
- `getStatusIcon` is left out. It returns JSX icons and follows the same switch as `getStatusColor`.
- The product page's review submission, wishlist toggle and share button are left out. They are UI plumbing, and review submission is a network call.
- Non-string JSON values are left out. A field is absent, `null` or a string; prices, stocks and counts are integers.
- Session.DecodeClaims: the byte decoding inside `atob` and `JSON.parse` are an abstract parser parameter. Only `atob`'s acceptance test is concrete.
- JsText.ToLower: maps ASCII letters only; JavaScript also lower-cases the rest of Unicode.
- JsText.Capitalize: maps ASCII letters only. JavaScript's `toUpperCase` covers all of Unicode and can lengthen a string (`"ß"` becomes `"SS"`), so the model's equal length holds only for the ASCII case.
- LoginPage.Interpret: `JSON.stringify` of the body is a parameter.
- Navbar.HandleSearch: `encodeURIComponent` is a parameter.
- ProductDetailsPage.RelatedProductsAsWritten: two populated category objects are taken to be distinct objects, so `===` between them is false. They come from separate responses.
- ProductCard.ReviewCount: `Number.isFinite` is read as presence, since a stored count or average is either absent or an integer or real. ProductCard.AverageRating reads it the same way.
- ProductCard.ImageSource: a `null` first entry of `images` is not a value of the model. In the source it would throw.
- ProductsPage.FilterProductsAsWritten: a missing product `name` is not a value of the model. In the source it would also throw.
- The remaining files are presentational, routing or bootstrap code, or forward to the missing cart context, and are left out. These are `About.jsx`, `Hero.jsx`, `Footer.jsx`, `GallerySection.jsx`, `AmbitionSection.jsx`, `PopularFurniture.jsx`, `ProductPreviewSection.jsx`, `Cart.jsx`, `Sidebar.jsx`, `Contact.jsx`, `App.jsx` and `main.jsx`.

## Findings

| source | as written | input that shows it | evidently intended | confidence | as-written member | corrected member |
|---|---|---|---|---|---|---|
| front-end/src/pages/Products.jsx:57-58 | `typeof product.category === "object"` is also true for `null`, and `null._id` throws inside the filter | a category is selected and one listed product's category is `null` (its category was deleted) | a `null` category simply does not match | not executed | ProductsPage.FilterProductsAsWritten | ProductsPage.FilterProducts |
| front-end/src/pages/ProductDetails.jsx:86-87 | `p.category?._id === product.category?._id` compares `undefined === undefined` for bare string ids | two products with category ids `"seating"` and `"lighting"` are shown as related | same-category products only | not executed | ProductDetailsPage.RelatedProductsAsWritten | ProductDetailsPage.RelatedProducts |
| front-end/src/pages/Dashboard.jsx:478 | the sidebar's "Active Orders" compares the raw status with `"Pending"` and `"Processing"`, while the status cards lower-case it first and a status change sends the status lower-cased (Dashboard.jsx:246) | an order whose status is `"pending"` is on the pending card but not an active order | count the orders whose lower-cased status is `pending` or `processing`, which is the pending card plus the processing card | not executed | Dashboard.ActiveOrders | Dashboard.ActiveOrdersIgnoringCase |
| front-end/src/pages/Profile.jsx:17 | the effect's filter reads the `user` it closed over, still the initial `guest@example.com` one | an order without `user` shipped to the signed-in user's email is missing, and one shipped to `guest@example.com` shows for everyone | compare against the email just derived from the token | not executed | ProfilePage.LoadAsWritten | ProfilePage.Load |

Each finding is shown by a lemma:

- `ProductsPage.NullCategoryThrows` shows the first. `ProductsPage.AsWrittenAgrees` shows that the corrected filter agrees with the written one wherever the written one does not throw.
- `ProductDetailsPage.StringCategoriesAlwaysRelated` shows the second. `ProductDetailsPage.AsWrittenAgreesOnPopulated` shows that populated categories are handled correctly as written.
- `Dashboard.ActiveOrdersCaseSensitive` shows the sidebar finding on one order. `Dashboard.LowerCaseStatusNotActive` and `Dashboard.SentStatusNeverActive` extend it to every lower-case status, including every status the dashboard sends. `Dashboard.ActiveIgnoringCaseIsCards` shows that the corrected count agrees with the cards.
- `ProfilePage.StaleEmailHidesOwnOrder` and `ProfilePage.GuestOrdersShownToEveryone` show the fourth.

=== FILE: CheckOutPage.dfy ===
/** The checkout page: the shipping form, the payment choice, the order
    payload built from the cart, and what the page does with the reply. */
module CheckOutPage {

  import opened Wrappers
  import opened Storefront
  import Session

  datatype CheckoutForm = CheckoutForm(
    fullName: string, email: string, phone: string, address: string,
    city: string, postalCode: string, country: string)

  const InitialForm := CheckoutForm("", "", "", "", "", "", "Pakistan")

  /** The `name` attribute of the form's inputs. */
  datatype FormField = FullName | Email | Phone | Address | City | PostalCode | Country

  function FieldValue(f: CheckoutForm, field: FormField): string {
    match field
    case FullName => f.fullName
    case Email => f.email
    case Phone => f.phone
    case Address => f.address
    case City => f.city
    case PostalCode => f.postalCode
    case Country => f.country
  }

  /** `handleChange`: `{...form, [name]: value}`. */
  function HandleChange(f: CheckoutForm, field: FormField, value: string): (r: CheckoutForm)
    ensures FieldValue(r, field) == value
    ensures forall other: FormField :: other != field ==> FieldValue(r, other) == FieldValue(f, other)
  {
    match field
    case FullName => f.(fullName := value)
    case Email => f.(email := value)
    case Phone => f.(phone := value)
    case Address => f.(address := value)
    case City => f.(city := value)
    case PostalCode => f.(postalCode := value)
    case Country => f.(country := value)
  }

  /** The two radio buttons. */
  datatype PaymentMethod = CashOnDelivery | CreditCard {
    function Name(): string {
      match this
      case CashOnDelivery => "COD"
      case CreditCard => "Credit Card"
    }
  }

  const InitialPayment := CashOnDelivery

  /** The payment method after the user clicks the given radio buttons in turn. */
  function ChoosePayment(clicks: seq<PaymentMethod>): (r: PaymentMethod)
    ensures |clicks| == 0 ==> r == InitialPayment
    ensures |clicks| > 0 ==> r == clicks[|clicks| - 1]
  {
    if |clicks| == 0 then InitialPayment else clicks[|clicks| - 1]
  }

  /** The method sent is always one of the two the server knows. */
  lemma PaymentNameKnown(clicks: seq<PaymentMethod>)
    ensures ChoosePayment(clicks).Name() in {"COD", "Credit Card"}
    ensures |clicks| == 0 ==> ChoosePayment(clicks).Name() == "COD"
  {
  }

  datatype OrderItem = OrderItem(name: string, qty: int, image: string, price: int, product: string)

  /** `item.images?.[0]?.img_url || ''`. */
  function ItemImage(item: CartItem): (r: string)
    ensures (item.images.None? || |item.images.value| == 0) ==> r == ""
    ensures item.images.Some? && |item.images.value| > 0 && item.images.value[0].ImageObject? ==>
      r == OrEmpty(item.images.value[0].imgUrl)
    ensures item.images.Some? && |item.images.value| > 0 && item.images.value[0].ImageText? ==> r == ""
  {
    if item.images.Some? && |item.images.value| > 0 then
      match item.images.value[0]
      case ImageObject(u) => OrEmpty(u)
      case ImageText(_) => ""
    else ""
  }

  function ToOrderItem(item: CartItem): (r: OrderItem)
    ensures r.name == item.name && r.qty == item.quantity && r.price == item.price && r.product == item.id
    ensures r.image == ItemImage(item)
  {
    OrderItem(item.name, item.quantity, ItemImage(item), item.price, item.id)
  }

  /** `cartItems.map(...)`: one entry per cart line, in cart order. */
  function OrderItems(cart: seq<CartItem>): (r: seq<OrderItem>)
    ensures |r| == |cart|
    ensures forall i :: 0 <= i < |r| ==>
      r[i].name == cart[i].name && r[i].qty == cart[i].quantity
      && r[i].price == cart[i].price && r[i].product == cart[i].id && r[i].image == ItemImage(cart[i])
    decreases |cart|
  {
    if |cart| == 0 then [] else [ToOrderItem(cart[0])] + OrderItems(cart[1..])
  }

  /** Mapping a concatenation is concatenating the mappings. */
  lemma {:induction false} OrderItemsAppend(a: seq<CartItem>, b: seq<CartItem>)
    ensures OrderItems(a + b) == OrderItems(a) + OrderItems(b)
    decreases |a|
  {
    if |a| == 0 {
      assert a + b == b;
    } else {
      assert (a + b)[1..] == a[1..] + b;
      OrderItemsAppend(a[1..], b);
    }
  }

  datatype ShippingAddress = ShippingAddress(
    address: string, city: string, postalCode: string, country: string, email: string, fullName: string)

  function ShippingOf(f: CheckoutForm): (r: ShippingAddress)
    ensures r.address == f.address && r.city == f.city && r.postalCode == f.postalCode
    ensures r.country == f.country && r.email == f.email && r.fullName == f.fullName
  {
    ShippingAddress(f.address, f.city, f.postalCode, f.country, f.email, f.fullName)
  }

  datatype OrderPayload = OrderPayload(
    orderItems: seq<OrderItem>, totalprice: int, shippingAddress: ShippingAddress,
    paymentMethod: string, user: Option<string>)

  /** The body posted to `/orders`; `total` is the cart's `getTotal()`. */
  function BuildPayload(cart: seq<CartItem>, total: int, f: CheckoutForm, payment: PaymentMethod, store: Session.Store): (r: OrderPayload)
    ensures r.orderItems == OrderItems(cart)
    ensures r.totalprice == total
    ensures r.shippingAddress == ShippingOf(f)
    ensures r.paymentMethod == payment.Name()
    ensures r.user.Some? <==> Session.GetOrEmpty(store, Session.UserIdKey) != ""
    ensures r.user.Some? ==> r.user.value == store[Session.UserIdKey]
  {
    var userId := Session.GetOrEmpty(store, Session.UserIdKey);
    OrderPayload(OrderItems(cart), total, ShippingOf(f), payment.Name(), if userId != "" then Some(userId) else None)
  }

  /** The phone number typed into the form never reaches the payload. */
  lemma PhoneNotSent(cart: seq<CartItem>, total: int, f: CheckoutForm, phone: string, payment: PaymentMethod, store: Session.Store)
    ensures BuildPayload(cart, total, HandleChange(f, Phone, phone), payment, store) == BuildPayload(cart, total, f, payment, store)
  {
    var g := HandleChange(f, Phone, phone);
    assert ShippingOf(g) == ShippingOf(f);
  }

  /** The reply to the post: a body with or without a truthy `_id`, or an exception. */
  datatype OrderReply = Responded(id: Option<string>) | Threw

  const OrderFailed := "Order failed. Please try again."
  const OrderCrashed := "Something went wrong placing your order!"

  /** The page's state after the reply; `clearsCart` says whether the cart's
      `clearCart` is called. */
  datatype Outcome = Outcome(placed: bool, clearsCart: bool, error: string)

  /** `handleOrder`: the payload it posts and the page's state afterwards. */
  function HandleOrder(cart: seq<CartItem>, total: int, f: CheckoutForm, payment: PaymentMethod,
                       store: Session.Store, reply: OrderReply): (r: (OrderPayload, Outcome))
    ensures r.0 == BuildPayload(cart, total, f, payment, store)
    ensures r.1.placed <==> reply.Responded? && Present(reply.id)
    ensures r.1.clearsCart <==> r.1.placed
    ensures r.1.placed <==> r.1.error == ""
    ensures reply.Threw? ==> r.1.error == OrderCrashed
    ensures reply.Responded? && !Present(reply.id) ==> r.1.error == OrderFailed
  {
    var payload := BuildPayload(cart, total, f, payment, store);
    match reply
    case Threw => (payload, Outcome(false, false, OrderCrashed))
    case Responded(id) =>
      if Present(id) then (payload, Outcome(true, true, ""))
      else (payload, Outcome(false, false, OrderFailed))
  }
}

=== FILE: ConfirmationPage.dfy ===
/** The order confirmation page: the countdown back to the profile and the
    prompt that invites guests to sign up. */
module ConfirmationPage {

  import Session

  const CountdownStart := 5

  /** One interval tick: the next countdown value, and whether this tick
      navigates to `/profile`. */
  datatype Tick = Tick(next: int, navigates: bool)

  /** The state updater passed to `setCountdown`. */
  function TickStep(prev: int): (r: Tick)
    ensures r.navigates <==> prev <= 1
    ensures r.next >= 0
    ensures r.next < prev || prev <= 0
    ensures prev > 1 ==> r.next == prev - 1
    ensures prev <= 1 ==> r.next == 0
  {
    if prev <= 1 then Tick(0, true) else Tick(prev - 1, false)
  }

  /** The countdown after `k` ticks. */
  function CountdownAfter(k: nat): int
    decreases k
  {
    if k == 0 then CountdownStart else TickStep(CountdownAfter(k - 1)).next
  }

  /** Whether the `k`-th tick (counting from 1) navigates. */
  predicate NavigatesOn(k: nat)
    requires k >= 1
  {
    TickStep(CountdownAfter(k - 1)).navigates
  }

  /** The countdown goes 5, 4, 3, 2, 1 and then stays at 0. */
  lemma {:induction false} CountdownValue(k: nat)
    ensures CountdownAfter(k) == if k < 5 then 5 - k else 0
    decreases k
  {
    if k > 0 {
      CountdownValue(k - 1);
    }
  }

  /** The countdown is never negative, and the first navigation happens on
      exactly the fifth tick (and, while the page stays mounted, on every
      tick after it). */
  lemma {:induction false} FirstNavigationOnFifthTick(k: nat)
    requires k >= 1
    ensures CountdownAfter(k) >= 0
    ensures NavigatesOn(k) <==> k >= 5
  {
    CountdownValue(k);
    CountdownValue(k - 1);
  }

  /** The sign-up prompt: shown exactly when no token is stored. */
  predicate ShowGuestPrompt(store: Session.Store) {
    Session.GetOrEmpty(store, Session.TokenKey) == ""
  }

  /** The prompt is shown exactly to visitors the session treats as logged out. */
  lemma {:induction false} GuestPromptIffLoggedOut(store: Session.Store, parse: Session.PayloadParser)
    ensures ShowGuestPrompt(store) <==> !Session.IsLoggedIn(Session.Init(store, parse))
  {
    var s := Session.Init(store, parse);
    assert s.token == Session.GetOrEmpty(store, Session.TokenKey);
  }
}

=== FILE: Dashboard.dfy ===
/** The admin dashboard's computations over orders and products: revenue and
    status statistics, the optimistic status update with rollback, product
    form validation, deletion, and the stock label. */
module Dashboard {

  import opened Wrappers
  import opened Sequences
  import opened Storefront
  import JsText
  import Session

  // ---------------------------------------------------------------------
  // Order statistics
  // ---------------------------------------------------------------------

  /** `(order.status || '').toLowerCase()`. */
  function LowerStatus(o: Order): string {
    JsText.ToLower(o.status.GetOr(""))
  }

  predicate IsDelivered(o: Order) {
    LowerStatus(o) == "delivered"
  }

  /** `order.totalAmount || 0`. */
  function Amount(o: Order): int {
    o.totalAmount.GetOr(0)
  }

  /** Sum of the amounts of all given orders. */
  function SumAmounts(orders: seq<Order>): int
    decreases |orders|
  {
    if |orders| == 0 then 0 else Amount(orders[0]) + SumAmounts(orders[1..])
  }

  /** `totalRevenue`: the reduce over the orders, adding an order's amount
      only when its lower-cased status is `delivered`. */
  function TotalRevenue(orders: seq<Order>): (r: int)
    ensures (forall i :: 0 <= i < |orders| ==> Amount(orders[i]) >= 0) ==> r >= 0
    ensures (forall i :: 0 <= i < |orders| ==> !IsDelivered(orders[i])) ==> r == 0
    decreases |orders|
  {
    if |orders| == 0 then 0
    else (if IsDelivered(orders[0]) then Amount(orders[0]) else 0) + TotalRevenue(orders[1..])
  }

  /** Revenue is the sum of the amounts of exactly the delivered orders. */
  lemma {:induction false} RevenueIsDeliveredSum(orders: seq<Order>)
    ensures TotalRevenue(orders) == SumAmounts(Filter(orders, IsDelivered))
    decreases |orders|
  {
    if |orders| > 0 {
      RevenueIsDeliveredSum(orders[1..]);
      if IsDelivered(orders[0]) {
        var rest := Filter(orders[1..], IsDelivered);
        assert Filter(orders, IsDelivered) == [orders[0]] + rest;
        assert ([orders[0]] + rest)[1..] == rest;
      }
    }
  }

  /** The filter callback of one status card. */
  function StatusIs(name: string): Order -> bool {
    (o: Order) => LowerStatus(o) == name
  }

  /** `orders.filter(o => (o.status || '').toLowerCase() === name).length`. */
  function StatusCount(orders: seq<Order>, name: string): (n: nat)
    ensures n <= |orders|
    ensures n == |Filter(orders, StatusIs(name))|
    decreases |orders|
  {
    if |orders| == 0 then 0
    else
      assert Filter(orders, StatusIs(name))
          == (if LowerStatus(orders[0]) == name then [orders[0]] else []) + Filter(orders[1..], StatusIs(name));
      (if LowerStatus(orders[0]) == name then 1 else 0) + StatusCount(orders[1..], name)
  }

  datatype StatusCounts = StatusCounts(pending: nat, processing: nat, shipped: nat, delivered: nat, cancelled: nat)

  /** The five dashboard status cards, each the number of orders whose
      lower-cased status is that card's word. */
  function Counts(orders: seq<Order>): (c: StatusCounts)
    ensures c.pending == |Filter(orders, StatusIs("pending"))|
    ensures c.processing == |Filter(orders, StatusIs("processing"))|
    ensures c.shipped == |Filter(orders, StatusIs("shipped"))|
    ensures c.delivered == |Filter(orders, StatusIs("delivered"))|
    ensures c.cancelled == |Filter(orders, StatusIs("cancelled"))|
    ensures c.pending <= |orders| && c.processing <= |orders| && c.shipped <= |orders|
    ensures c.delivered <= |orders| && c.cancelled <= |orders|
  {
    StatusCounts(StatusCount(orders, "pending"), StatusCount(orders, "processing"),
                 StatusCount(orders, "shipped"), StatusCount(orders, "delivered"),
                 StatusCount(orders, "cancelled"))
  }

  function CountsTotal(c: StatusCounts): nat {
    c.pending + c.processing + c.shipped + c.delivered + c.cancelled
  }

  function Indicator(b: bool): nat {
    if b then 1 else 0
  }

  /** A status string equals at most one of the five status words, and the
      empty string equals none. */
  lemma AtMostOneWord(ls: string)
    ensures Indicator(ls == "pending") + Indicator(ls == "processing") + Indicator(ls == "shipped")
            + Indicator(ls == "delivered") + Indicator(ls == "cancelled") <= 1
    ensures ls == "" ==> Indicator(ls == "pending") + Indicator(ls == "processing") + Indicator(ls == "shipped")
                         + Indicator(ls == "delivered") + Indicator(ls == "cancelled") == 0
  {
    if ls == "pending" {
      assert ls[0] == 'p' && ls[1] == 'e';
    } else if ls == "processing" {
      assert |ls| == 10 && ls[0] == 'p';
    } else if ls == "shipped" {
      assert ls[0] == 's';
    } else if ls == "delivered" {
      assert ls[0] == 'd';
    }
  }

  /** An order falls into at most one card, so the cards never add up to more
      than the number of orders; an order without a status is in none. */
  lemma {:induction false} CountsAtMostOrders(orders: seq<Order>)
    ensures CountsTotal(Counts(orders)) <= |orders|
    ensures (forall i :: 0 <= i < |orders| ==> orders[i].status.None?) ==> CountsTotal(Counts(orders)) == 0
    decreases |orders|
  {
    if |orders| > 0 {
      CountsAtMostOrders(orders[1..]);
      var ls := LowerStatus(orders[0]);
      CountsStep(orders);
      AtMostOneWord(ls);
      if orders[0].status.None? {
        assert ls == "";
      }
    }
  }

  /** Adding an order in front adds one to the card of its status word, if any. */
  lemma CountsStep(orders: seq<Order>)
    requires |orders| > 0
    ensures var ls := LowerStatus(orders[0]);
      CountsTotal(Counts(orders)) == CountsTotal(Counts(orders[1..]))
        + Indicator(ls == "pending") + Indicator(ls == "processing") + Indicator(ls == "shipped")
        + Indicator(ls == "delivered") + Indicator(ls == "cancelled")
  {
  }

  /** The delivered card counts exactly the orders revenue is taken from. */
  lemma {:induction false} DeliveredCardMatchesRevenue(orders: seq<Order>)
    ensures Counts(orders).delivered == |Filter(orders, IsDelivered)|
    decreases |orders|
  {
    if |orders| > 0 {
      DeliveredCardMatchesRevenue(orders[1..]);
    }
  }

  /** The callback of the sidebar's "Active Orders" filter: the raw status,
      compared case-sensitively with the two capitalised labels. */
  predicate IsActive(o: Order) {
    o.status == Some("Pending") || o.status == Some("Processing")
  }

  /** The sidebar's "Active Orders": the orders whose stored status is
      exactly `Pending` or `Processing`. */
  function ActiveOrders(orders: seq<Order>): (n: nat)
    ensures n == |Filter(orders, IsActive)|
    ensures n == 0 <==> forall i :: 0 <= i < |orders| ==>
      orders[i].status != Some("Pending") && orders[i].status != Some("Processing")
  {
    Count(orders, IsActive)
  }

  /** The sidebar count compared the way the status cards compare, after
      lower-casing: an order stored as `pending` is active too. */
  predicate IsActiveIgnoringCase(o: Order) {
    LowerStatus(o) == "pending" || LowerStatus(o) == "processing"
  }

  function ActiveOrdersIgnoringCase(orders: seq<Order>): (n: nat)
    ensures n == |Filter(orders, IsActiveIgnoringCase)|
    ensures n == 0 <==> forall i :: 0 <= i < |orders| ==>
      LowerStatus(orders[i]) != "pending" && LowerStatus(orders[i]) != "processing"
  {
    Count(orders, IsActiveIgnoringCase)
  }

  /** The two sidebar labels lower-case to the card words. */
  lemma ActiveLabelsLower()
    ensures JsText.ToLower("Pending") == "pending"
    ensures JsText.ToLower("Processing") == "processing"
  {
    PendingLabel();
    JsText.CapitalizeIdempotent("pending");
    JsText.CapitalizeMatchesLower("Pending", "pending");
    ProcessingLabel();
    JsText.CapitalizeIdempotent("processing");
    JsText.CapitalizeMatchesLower("Processing", "processing");
  }

  /** An order the sidebar counts is active ignoring case. */
  lemma ActiveIsActiveIgnoringCase(o: Order)
    ensures IsActive(o) ==> IsActiveIgnoringCase(o)
  {
    ActiveLabelsLower();
  }

  /** Every order the sidebar counts, the corrected count counts too. */
  lemma {:induction false} ActiveAtMostIgnoringCase(orders: seq<Order>)
    ensures ActiveOrders(orders) <= ActiveOrdersIgnoringCase(orders)
    decreases |orders|
  {
    if |orders| > 0 {
      ActiveAtMostIgnoringCase(orders[1..]);
      ActiveIsActiveIgnoringCase(orders[0]);
    }
  }

  /** The corrected count is exactly the pending card plus the processing
      card. */
  lemma {:induction false} ActiveIgnoringCaseIsCards(orders: seq<Order>)
    ensures ActiveOrdersIgnoringCase(orders) == Counts(orders).pending + Counts(orders).processing
    decreases |orders|
  {
    if |orders| > 0 {
      ActiveIgnoringCaseIsCards(orders[1..]);
      AtMostOneWord(LowerStatus(orders[0]));
      assert Counts(orders).pending == Indicator(LowerStatus(orders[0]) == "pending") + Counts(orders[1..]).pending;
      assert Counts(orders).processing == Indicator(LowerStatus(orders[0]) == "processing") + Counts(orders[1..]).processing;
    }
  }

  /** The sidebar never shows more active orders than the pending and
      processing cards together. */
  lemma ActiveAtMostPendingProcessing(orders: seq<Order>)
    ensures ActiveOrders(orders) <= Counts(orders).pending + Counts(orders).processing
  {
    ActiveAtMostIgnoringCase(orders);
    ActiveIgnoringCaseIsCards(orders);
  }

  /** A lower-cased string is never `Pending` or `Processing`: its first
      character is not an upper-case letter. */
  lemma LowerNeverActiveLabel(s: string)
    ensures JsText.ToLower(s) != "Pending" && JsText.ToLower(s) != "Processing"
  {
  }

  /** An order whose stored status is already lower case, as the dashboard
      saves it, is never among the sidebar's active orders. */
  lemma LowerCaseStatusNotActive(o: Order)
    requires o.status.Some? && JsText.ToLower(o.status.value) == o.status.value
    ensures !IsActive(o)
    ensures ActiveOrders([o]) == 0
  {
  }

  /** The status a status change sends is lower-cased, so an order saved
      through the dashboard is never among the sidebar's active orders. */
  lemma SentStatusNeverActive(orders: seq<Order>, id: string, newStatus: string, store: Session.Store, reply: UpdateReply)
    ensures var r := HandleStatusChange(orders, id, newStatus, store, reply);
      r.sentStatus.Some? ==> r.sentStatus.value != "Pending" && r.sentStatus.value != "Processing"
  {
  }

  /** An order the server reports as `pending` is on the pending card and in
      the corrected count, but not among the sidebar's active orders. */
  lemma ActiveOrdersCaseSensitive()
    ensures var orders := [Order("o1", Some("pending"), None, None, None)];
      Counts(orders).pending == 1 && ActiveOrders(orders) == 0 && ActiveOrdersIgnoringCase(orders) == 1
  {
    var o := Order("o1", Some("pending"), None, None, None);
    PendingLabel();
    LowerCaseStatusNotActive(o);
    assert LowerStatus(o) == "pending";
    assert IsActiveIgnoringCase(o);
  }

  // ---------------------------------------------------------------------
  // Status display and the optimistic status update
  // ---------------------------------------------------------------------

  /** The labels of the status drop-down. */
  const StatusLabels := ["Pending", "Processing", "Shipped", "Delivered", "Cancelled"]

  /** The value shown in an order's status drop-down: the status capitalised,
      or `Pending` when it is missing or empty. */
  function DisplayStatus(status: Option<string>): string {
    if Present(status) then JsText.Capitalize(status.value) else "Pending"
  }

  /** The statuses as the server spells them. */
  const StatusWords := ["pending", "processing", "shipped", "delivered", "cancelled"]

  /** A word of lower-case ASCII letters is its own lower-casing, and
      capitalising it upper-cases the first letter only. */
  lemma LowerWord(w: string)
    requires |w| > 0 && forall i :: 0 <= i < |w| ==> 'a' <= w[i] <= 'z'
    ensures JsText.ToLower(w) == w
    ensures JsText.Capitalize(w) == [JsText.UpperChar(w[0])] + w[1..]
  {
    assert JsText.ToLower(w[1..]) == w[1..];
  }

  /** `shown` is the lower-case word `w` capitalised. */
  lemma WordLabel(w: string, shown: string)
    requires |w| > 0 && forall i :: 0 <= i < |w| ==> 'a' <= w[i] <= 'z'
    requires shown == [JsText.UpperChar(w[0])] + w[1..]
    ensures JsText.ToLower(w) == w && JsText.Capitalize(w) == shown
  {
    LowerWord(w);
  }

  /** One status word and its label: `"pending"` shows as `"Pending"`. */
  lemma PendingLabel()
    ensures JsText.ToLower("pending") == "pending" && JsText.Capitalize("pending") == "Pending"
  {
    var w := "pending";
    assert forall i :: 0 <= i < |w| ==> 'a' <= w[i] <= 'z';
    WordLabel(w, "Pending");
  }

  lemma ProcessingLabel()
    ensures JsText.ToLower("processing") == "processing" && JsText.Capitalize("processing") == "Processing"
  {
    var w := "processing";
    assert forall i :: 0 <= i < |w| ==> 'a' <= w[i] <= 'z';
    WordLabel(w, "Processing");
  }

  lemma ShippedLabel()
    ensures JsText.ToLower("shipped") == "shipped" && JsText.Capitalize("shipped") == "Shipped"
  {
    var w := "shipped";
    assert forall i :: 0 <= i < |w| ==> 'a' <= w[i] <= 'z';
    WordLabel(w, "Shipped");
  }

  lemma DeliveredLabel()
    ensures JsText.ToLower("delivered") == "delivered" && JsText.Capitalize("delivered") == "Delivered"
  {
    var w := "delivered";
    assert forall i :: 0 <= i < |w| ==> 'a' <= w[i] <= 'z';
    WordLabel(w, "Delivered");
  }

  lemma CancelledLabel()
    ensures JsText.ToLower("cancelled") == "cancelled" && JsText.Capitalize("cancelled") == "Cancelled"
  {
    var w := "cancelled";
    assert forall i :: 0 <= i < |w| ==> 'a' <= w[i] <= 'z';
    WordLabel(w, "Cancelled");
  }

  /** Each drop-down label is its status word capitalised. */
  lemma LabelCapitalizesWord(k: nat)
    requires k < |StatusWords|
    ensures |StatusLabels| == |StatusWords|
    ensures JsText.ToLower(StatusWords[k]) == StatusWords[k]
    ensures JsText.Capitalize(StatusWords[k]) == StatusLabels[k]
  {
    if k == 0 {
      assert StatusWords[k] == "pending" && StatusLabels[k] == "Pending";
      PendingLabel();
    } else if k == 1 {
      assert StatusWords[k] == "processing" && StatusLabels[k] == "Processing";
      ProcessingLabel();
    } else if k == 2 {
      assert StatusWords[k] == "shipped" && StatusLabels[k] == "Shipped";
      ShippedLabel();
    } else if k == 3 {
      assert StatusWords[k] == "delivered" && StatusLabels[k] == "Delivered";
      DeliveredLabel();
    } else {
      assert StatusWords[k] == "cancelled" && StatusLabels[k] == "Cancelled";
      CancelledLabel();
    }
  }

  /** The drop-down shows label `k` exactly when the status, lower-cased, is
      status word `k`: any capitalisation of a status selects its label. */
  lemma DisplayStatusShowsLabel(s: string, k: nat)
    requires s != "" && k < |StatusWords|
    ensures DisplayStatus(Some(s)) == StatusLabels[k] <==> JsText.ToLower(s) == StatusWords[k]
  {
    LabelCapitalizesWord(k);
    JsText.CapitalizeMatchesLower(s, StatusWords[k]);
  }

  /** The optimistic step: every order with the id gets the new status. */
  function MarkStatus(orders: seq<Order>, id: string, newStatus: string): (r: seq<Order>)
    ensures |r| == |orders|
    ensures forall i :: 0 <= i < |orders| && orders[i].id != id ==> r[i] == orders[i]
    ensures forall i :: 0 <= i < |orders| && orders[i].id == id ==> r[i] == orders[i].(status := Some(newStatus))
  {
    seq(|orders|, i requires 0 <= i < |orders| =>
      if orders[i].id == id then orders[i].(status := Some(newStatus)) else orders[i])
  }

  /** `prev.map(order => order._id === id ? with : order)`. */
  function ReplaceOrders(orders: seq<Order>, id: string, with: Order): (r: seq<Order>)
    ensures |r| == |orders|
    ensures forall i :: 0 <= i < |orders| && orders[i].id != id ==> r[i] == orders[i]
    ensures forall i :: 0 <= i < |orders| && orders[i].id == id ==> r[i] == with
  {
    seq(|orders|, i requires 0 <= i < |orders| => if orders[i].id == id then with else orders[i])
  }

  /** `orders.find(order => order._id === id)`. */
  function FindOrder(orders: seq<Order>, id: string): Option<Order> {
    Find(orders, (o: Order) => o.id == id)
  }

  predicate UniqueIds(orders: seq<Order>) {
    forall i, j :: 0 <= i < |orders| && 0 <= j < |orders| && orders[i].id == orders[j].id ==> i == j
  }

  /** What the `PUT /orders/:id` request does: succeed with or without an
      order in the body, or fail. */
  datatype UpdateReply = Saved(order: Option<Order>) | UpdateFailed

  /** The orders after `handleStatusChange`, and the status sent, if any. */
  datatype StatusChange = StatusChange(orders: seq<Order>, sentStatus: Option<string>)

  /** `handleStatusChange(id, newStatus)` run to completion without another
      update in between. A missing token throws before the request. */
  function HandleStatusChange(orders: seq<Order>, id: string, newStatus: string, store: Session.Store, reply: UpdateReply): (r: StatusChange)
    ensures FindOrder(orders, id).None? ==> r == StatusChange(orders, None)
    ensures |r.orders| == |orders|
    ensures forall i :: 0 <= i < |orders| && orders[i].id != id ==> r.orders[i] == orders[i]
    ensures r.sentStatus.Some? <==> FindOrder(orders, id).Some? && Session.GetOrEmpty(store, Session.TokenKey) != ""
    ensures r.sentStatus.Some? ==> r.sentStatus.value == JsText.ToLower(newStatus)
    ensures FindOrder(orders, id).Some?
            && (Session.GetOrEmpty(store, Session.TokenKey) == "" || reply.UpdateFailed?) ==>
      r.orders == ReplaceOrders(orders, id, FindOrder(orders, id).value)
    ensures FindOrder(orders, id).Some? && Session.GetOrEmpty(store, Session.TokenKey) != ""
            && reply == Saved(None) ==>
      r.orders == MarkStatus(orders, id, newStatus)
    ensures FindOrder(orders, id).Some? && Session.GetOrEmpty(store, Session.TokenKey) != ""
            && reply.Saved? && reply.order.Some? ==>
      r.orders == ReplaceOrders(orders, id, reply.order.value)
  {
    match FindOrder(orders, id)
    case None => StatusChange(orders, None)
    case Some(original) =>
      var optimistic := MarkStatus(orders, id, newStatus);
      if Session.GetOrEmpty(store, Session.TokenKey) == "" then
        RollbackOverridesMark(orders, id, newStatus, original);
        StatusChange(ReplaceOrders(optimistic, id, original), None)
      else
        var sent := Some(JsText.ToLower(newStatus));
        match reply
        case UpdateFailed =>
          RollbackOverridesMark(orders, id, newStatus, original);
          StatusChange(ReplaceOrders(optimistic, id, original), sent)
        case Saved(None) => StatusChange(optimistic, sent)
        case Saved(Some(o)) =>
          RollbackOverridesMark(orders, id, newStatus, o);
          StatusChange(ReplaceOrders(optimistic, id, o), sent)
  }

  /** Rolling back overwrites the optimistic value whatever it was. */
  lemma RollbackOverridesMark(orders: seq<Order>, id: string, newStatus: string, original: Order)
    ensures ReplaceOrders(MarkStatus(orders, id, newStatus), id, original) == ReplaceOrders(orders, id, original)
  {
  }

  /** With unique ids, putting the found order back restores the list. */
  lemma ReplaceWithFoundIsIdentity(orders: seq<Order>, id: string)
    requires UniqueIds(orders)
    requires FindOrder(orders, id).Some?
    ensures ReplaceOrders(orders, id, FindOrder(orders, id).value) == orders
  {
    var found := FindOrder(orders, id).value;
    var r := ReplaceOrders(orders, id, found);
    var k :| FirstAt(orders, (o: Order) => o.id == id, k) && orders[k] == found;
    forall i | 0 <= i < |orders| ensures r[i] == orders[i] {
      if orders[i].id == id {
        assert orders[i].id == orders[k].id;
      }
    }
  }

  /** A failed update leaves the orders exactly as they were before the call
      (ids being unique). */
  lemma FailedUpdateRollsBack(orders: seq<Order>, id: string, newStatus: string, store: Session.Store)
    requires UniqueIds(orders)
    ensures HandleStatusChange(orders, id, newStatus, store, UpdateFailed).orders == orders
  {
    if FindOrder(orders, id).Some? {
      ReplaceWithFoundIsIdentity(orders, id);
    }
  }

  /** With two orders sharing an id, the rollback copies the first over the
      second, so the list is not restored. */
  lemma DuplicateIdsBreakRollback()
    ensures var a := Order("x", Some("pending"), Some(1), None, None);
            var b := Order("x", Some("shipped"), Some(2), None, None);
            HandleStatusChange([a, b], "x", "Delivered", map[], UpdateFailed).orders == [a, a]
  {
    var a := Order("x", Some("pending"), Some(1), None, None);
    var b := Order("x", Some("shipped"), Some(2), None, None);
    assert FindOrder([a, b], "x") == Some(a);
  }

  /** A reply without an order keeps the optimistic list: only the status of
      the matching orders has changed. */
  lemma SavedWithoutOrderKeepsOptimistic(orders: seq<Order>, id: string, newStatus: string, store: Session.Store)
    requires FindOrder(orders, id).Some? && Session.GetOrEmpty(store, Session.TokenKey) != ""
    ensures HandleStatusChange(orders, id, newStatus, store, Saved(None)).orders == MarkStatus(orders, id, newStatus)
  {
  }

  // ---------------------------------------------------------------------
  // Product form, deletion and stock label
  // ---------------------------------------------------------------------

  /** A value held in the product form: typed text, a number copied from a
      product being edited, or `undefined`. */
  datatype FormValue = Text(text: string) | Number(n: int) | Undefined

  predicate Filled(v: FormValue) {
    match v
    case Text(t) => t != ""
    case Number(n) => n != 0
    case Undefined => false
  }

  datatype ProductForm = ProductForm(name: FormValue, price: FormValue, stock: FormValue,
                                     category: FormValue, description: FormValue)

  const EmptyForm := ProductForm(Text(""), Text(""), Text(""), Text(""), Text(""))

  /** `handleEditProduct`: the form is filled from the product; the category
      is the populated object's `_id`, or `""`. */
  function EditForm(p: Product): (f: ProductForm)
    ensures f.name == Text(p.name) && f.price == Number(p.price) && f.stock == Number(p.stock)
    ensures f.category == Text(if p.category.Populated? then OrEmpty(p.category.id) else "")
    ensures f.description == if p.description.Some? then Text(p.description.value) else Undefined
  {
    ProductForm(Text(p.name), Number(p.price), Number(p.stock),
                Text(if p.category.Populated? then OrEmpty(p.category.id) else ""),
                if p.description.Some? then Text(p.description.value) else Undefined)
  }

  /** `!name || !price || !category || !stock` fails the submit. */
  predicate RequiredFilled(f: ProductForm) {
    Filled(f.name) && Filled(f.price) && Filled(f.category) && Filled(f.stock)
  }

  datatype ProductRequest = CreateProduct(form: ProductForm) | UpdateProduct(id: string, form: ProductForm)

  /** What the create/update request does. */
  datatype SaveReply = SaveOk | SaveFailed(message: Option<string>)

  datatype SubmitResult = SubmitResult(request: Option<ProductRequest>, error: string, message: string,
                                       form: ProductForm, editId: Option<string>)

  const FillAllFields := "Please fill all required fields: Name, Price, Category, Stock."
  const NoTokenMessage := "No authentication token found. Please login again."

  /** `handleProductSubmit`. */
  function HandleProductSubmit(f: ProductForm, editId: Option<string>, store: Session.Store, reply: SaveReply): (r: SubmitResult)
    ensures !RequiredFilled(f) ==> r == SubmitResult(None, FillAllFields, "", f, editId)
    ensures r.request.Some? <==> RequiredFilled(f) && Session.GetOrEmpty(store, Session.TokenKey) != ""
    ensures r.request.Some? ==> r.request.value == (if Present(editId) then UpdateProduct(editId.value, f) else CreateProduct(f))
    ensures r.error == "" <==> r.request.Some? && reply.SaveOk?
    ensures r.error == "" ==> r.form == EmptyForm && r.editId.None?
    ensures RequiredFilled(f) && Session.GetOrEmpty(store, Session.TokenKey) == "" ==>
      r == SubmitResult(None, NoTokenMessage, "", f, editId)
    ensures r.request.Some? && reply.SaveOk? ==>
      r.message == (if Present(editId) then "Product updated successfully!" else "Product created successfully!")
    ensures r.request.Some? && reply.SaveFailed? ==>
      r.error == (if Present(reply.message) then reply.message.value else "Failed to create/update product")
      && r.message == "" && r.form == f && r.editId == editId
  {
    if !RequiredFilled(f) then SubmitResult(None, FillAllFields, "", f, editId)
    else if Session.GetOrEmpty(store, Session.TokenKey) == "" then SubmitResult(None, NoTokenMessage, "", f, editId)
    else
      var req := if Present(editId) then UpdateProduct(editId.value, f) else CreateProduct(f);
      match reply
      case SaveOk =>
        SubmitResult(Some(req), "",
                     if Present(editId) then "Product updated successfully!" else "Product created successfully!",
                     EmptyForm, None)
      case SaveFailed(m) =>
        SubmitResult(Some(req), if Present(m) then m.value else "Failed to create/update product", "", f, editId)
  }

  /** A product opened for editing can be submitted unchanged exactly when its
      name, price and stock are non-zero/non-empty and its category is a
      populated object with an id: an out-of-stock product, or one whose
      category is a bare id, is refused. */
  lemma EditedFormValidIff(p: Product)
    ensures RequiredFilled(EditForm(p)) <==>
      p.name != "" && p.price != 0 && p.stock != 0 && p.category.Populated? && Present(p.category.id)
  {
  }

  /** `handleDeleteProduct`: on success every product with the id is removed. */
  function DeleteProduct(products: seq<Product>, id: string, ok: bool): (r: seq<Product>)
    ensures !ok ==> r == products
    ensures ok ==> forall i :: 0 <= i < |r| ==> r[i].id != id
    ensures ok ==> forall i :: 0 <= i < |products| && products[i].id != id ==> products[i] in r
    ensures ok ==> forall p :: multiset(r)[p] == if p.id != id then multiset(products)[p] else 0
    ensures SubsequenceOf(r, products)
  {
    if ok then Filter(products, (p: Product) => p.id != id)
    else SubsequenceRefl(products); products
  }

  /** Deleting the same id twice is deleting it once. */
  lemma DeleteIdempotent(products: seq<Product>, id: string)
    ensures DeleteProduct(DeleteProduct(products, id, true), id, true) == DeleteProduct(products, id, true)
  {
    FilterIdempotent(products, (p: Product) => p.id != id);
  }

  /** The products table's stock label. */
  function StockLabel(stock: int): (r: string)
    ensures r == "In Stock" <==> stock > 10
    ensures r == "Low Stock" <==> 0 < stock <= 10
    ensures r == "Out of Stock" <==> stock <= 0
  {
    if stock > 10 then "In Stock" else if stock > 0 then "Low Stock" else "Out of Stock"
  }
}

=== FILE: Filters.dfy ===
/** `FiltersProvider`: the catalogue's search term and selected category,
    two independent state cells shared by the navbar and the products page. */
module Filters {

  datatype FilterState = FilterState(searchTerm: string, selectedCategory: string)

  const Initial := FilterState("", "")

  /** `setSearchTerm(term)`. */
  function SetSearchTerm(f: FilterState, term: string): (r: FilterState)
    ensures r.searchTerm == term
    ensures r.selectedCategory == f.selectedCategory
  {
    f.(searchTerm := term)
  }

  /** `setSelectedCategory(id)`. */
  function SetSelectedCategory(f: FilterState, id: string): (r: FilterState)
    ensures r.selectedCategory == id
    ensures r.searchTerm == f.searchTerm
  {
    f.(selectedCategory := id)
  }

  /** `clearFilters()`. */
  function ClearFilters(f: FilterState): (r: FilterState)
    ensures r.searchTerm == "" && r.selectedCategory == ""
  {
    FilterState("", "")
  }

  /** Clearing returns to the initial state and is idempotent. */
  lemma ClearIsInitialAndIdempotent(f: FilterState)
    ensures ClearFilters(f) == Initial
    ensures ClearFilters(ClearFilters(f)) == ClearFilters(f)
  {
  }

  /** The two setters act on separate cells, so they commute. */
  lemma SettersCommute(f: FilterState, term: string, id: string)
    ensures SetSelectedCategory(SetSearchTerm(f, term), id) == SetSearchTerm(SetSelectedCategory(f, id), term)
  {
  }

  /** The products page's effect on the URL's `search` parameter: a truthy
      value replaces the search term, anything else leaves it alone. */
  function ApplySearchParam(f: FilterState, param: string): (r: FilterState)
    ensures param != "" ==> r.searchTerm == param
    ensures param == "" ==> r == f
    ensures r.selectedCategory == f.selectedCategory
  {
    if param != "" then SetSearchTerm(f, param) else f
  }
}

=== FILE: JsText.dfy ===
/** The handful of JavaScript string operations the storefront relies on:
    `trim`, ASCII `toLowerCase`/`toUpperCase`, `includes`, `slice` and
    `indexOf` of one character. */
module JsText {

  import opened Wrappers

  /** Characters `String.prototype.trim` removes: the ECMAScript WhiteSpace
      and LineTerminator code points. */
  predicate IsJsWhitespace(c: char) {
    || c == '\t' || c == '\U{B}' || c == '\U{C}' || c == ' '
    || c == '\U{A0}' || c == '\U{FEFF}'
    || c == '\U{1680}' || ('\U{2000}' <= c <= '\U{200A}') || c == '\U{202F}'
    || c == '\U{205F}' || c == '\U{3000}'
    || c == '\n' || c == '\r' || c == '\U{2028}' || c == '\U{2029}'
  }

  /** Drops leading whitespace. */
  function TrimStart(s: string): (r: string)
    ensures |r| <= |s| && r == s[|s| - |r|..]
    ensures |r| > 0 ==> !IsJsWhitespace(r[0])
    ensures forall i :: 0 <= i < |s| - |r| ==> IsJsWhitespace(s[i])
  {
    if |s| > 0 && IsJsWhitespace(s[0]) then TrimStart(s[1..]) else s
  }

  /** Drops trailing whitespace. */
  function TrimEnd(s: string): (r: string)
    ensures |r| <= |s| && r == s[..|r|]
    ensures |r| > 0 ==> !IsJsWhitespace(r[|r| - 1])
    ensures forall i :: |r| <= i < |s| ==> IsJsWhitespace(s[i])
  {
    if |s| > 0 && IsJsWhitespace(s[|s| - 1]) then TrimEnd(s[..|s| - 1]) else s
  }

  /** `s.trim()`: the longest infix of `s` that neither starts nor ends with
      whitespace, everything cut away being whitespace. */
  function Trim(s: string): (r: string)
    ensures |r| <= |s|
    ensures |r| > 0 ==> !IsJsWhitespace(r[0]) && !IsJsWhitespace(r[|r| - 1])
    ensures exists k :: 0 <= k <= |s| - |r| && r == s[k..][..|r|]
                        && IsBlank(s[..k]) && IsBlank(s[k..][|r|..])
  {
    var t := TrimStart(s);
    var r := TrimEnd(t);
    var k := |s| - |t|;
    assert t == s[k..];
    assert IsBlank(s[..k]);
    assert IsBlank(t[|r|..]);
    r
  }

  /** Every character of `s` is whitespace (so `s.trim() === ''`). */
  predicate IsBlank(s: string) {
    forall i :: 0 <= i < |s| ==> IsJsWhitespace(s[i])
  }

  /** `s.trim() !== ''` holds exactly when `s` has a non-whitespace character. */
  lemma {:induction false} TrimEmptyIffBlank(s: string)
    ensures Trim(s) == "" <==> IsBlank(s)
  {
    var t := TrimStart(s);
    if Trim(s) == "" {
      assert TrimEnd(t) == "";
      assert t == "";
    } else {
      var r := Trim(s);
      assert !IsJsWhitespace(r[0]);
      assert r[0] == t[0];
      assert t[0] == s[|s| - |t|];
    }
  }

  /** Trimming twice is trimming once. */
  lemma TrimIdempotent(s: string)
    ensures Trim(Trim(s)) == Trim(s)
  {
    var r := Trim(s);
    if |r| > 0 {
      assert TrimStart(r) == r;
      assert TrimEnd(r) == r;
    }
  }

  /** ASCII lower-casing of one character. */
  function LowerChar(c: char): char {
    if 'A' <= c <= 'Z' then (c as int + 32) as char else c
  }

  /** ASCII upper-casing of one character. */
  function UpperChar(c: char): char {
    if 'a' <= c <= 'z' then (c as int - 32) as char else c
  }

  /** `s.toLowerCase()` restricted to the ASCII letters. */
  function ToLower(s: string): (r: string)
    ensures |r| == |s|
    ensures forall i :: 0 <= i < |s| ==> r[i] == LowerChar(s[i])
  {
    if |s| == 0 then "" else [LowerChar(s[0])] + ToLower(s[1..])
  }

  lemma ToLowerIdempotent(s: string)
    ensures ToLower(ToLower(s)) == ToLower(s)
  {
  }

  lemma ToLowerAppend(a: string, b: string)
    ensures ToLower(a + b) == ToLower(a) + ToLower(b)
  {
  }

  /** Two characters agree upper-cased exactly when they agree lower-cased. */
  lemma CaseAgreement(a: char, b: char)
    ensures UpperChar(a) == UpperChar(b) <==> LowerChar(a) == LowerChar(b)
  {
  }

  /** `s.charAt(0).toUpperCase() + s.slice(1).toLowerCase()`. */
  function Capitalize(s: string): (r: string)
    ensures |r| == |s|
    ensures |s| > 0 ==> r[0] == UpperChar(s[0]) && r[1..] == ToLower(s[1..])
  {
    if |s| == 0 then "" else [UpperChar(s[0])] + ToLower(s[1..])
  }

  /** Capitalising a capitalised string leaves it as it is. */
  lemma CapitalizeIdempotent(s: string)
    ensures Capitalize(Capitalize(s)) == Capitalize(s)
  {
  }

  /** For a word spelled in lower case, capitalising any spelling of it gives
      the same label as capitalising the word itself, and conversely. */
  lemma {:induction false} CapitalizeMatchesLower(s: string, word: string)
    requires ToLower(word) == word
    ensures Capitalize(s) == Capitalize(word) <==> ToLower(s) == word
  {
    if |s| == |word| && |s| > 0 {
      CaseAgreement(s[0], word[0]);
      assert LowerChar(word[0]) == word[0];
      if ToLower(s) == word {
        assert ToLower(s[1..]) == ToLower(s)[1..];
        assert ToLower(word[1..]) == word[1..];
      }
      if Capitalize(s) == Capitalize(word) {
        assert ToLower(s[1..]) == ToLower(word[1..]);
        assert ToLower(s) == [LowerChar(s[0])] + ToLower(s[1..]);
        assert ToLower(word) == [LowerChar(word[0])] + ToLower(word[1..]);
      }
    }
  }

  /** `s.startsWith(p)`. */
  predicate StartsWith(s: string, p: string) {
    |p| <= |s| && s[..|p|] == p
  }

  /** `hay.includes(needle)`, computed by scanning start positions. */
  predicate Includes(hay: string, needle: string)
    decreases |hay|
  {
    StartsWith(hay, needle) || (|hay| > 0 && Includes(hay[1..], needle))
  }

  /** `needle` occurs in `hay` at position `i`. */
  predicate OccursAt(hay: string, needle: string, i: int) {
    0 <= i && i + |needle| <= |hay| && hay[i..i + |needle|] == needle
  }

  /** The scan finds `needle` exactly when it occurs at some position. */
  lemma {:induction false} IncludesIffOccurs(hay: string, needle: string)
    ensures Includes(hay, needle) <==> exists i :: OccursAt(hay, needle, i)
    decreases |hay|
  {
    if StartsWith(hay, needle) {
      assert OccursAt(hay, needle, 0);
    } else if |hay| > 0 {
      IncludesIffOccurs(hay[1..], needle);
      if Includes(hay[1..], needle) {
        var i :| OccursAt(hay[1..], needle, i);
        assert hay[1..][i..i + |needle|] == hay[i + 1..i + 1 + |needle|];
        assert OccursAt(hay, needle, i + 1);
      }
      if exists i :: OccursAt(hay, needle, i) {
        var i :| OccursAt(hay, needle, i);
        assert i != 0;
        assert hay[1..][i - 1..i - 1 + |needle|] == hay[i..i + |needle|];
        assert OccursAt(hay[1..], needle, i - 1);
      }
    }
  }

  /** Every string includes the empty string. */
  lemma IncludesEmpty(hay: string)
    ensures Includes(hay, "")
  {
    assert StartsWith(hay, "");
  }

  /** `s.indexOf(c)` as an option: the first position of `c`. */
  function IndexOf(s: string, c: char): (r: Option<nat>)
    ensures r.None? <==> c !in s
    ensures r.Some? ==> r.value < |s| && s[r.value] == c && c !in s[..r.value]
  {
    if |s| == 0 then None
    else if s[0] == c then Some(0)
    else match IndexOf(s[1..], c)
      case None => None
      case Some(i) => Some(i + 1)
  }
}

=== FILE: LoginPage.dfy ===
/** `handleSubmit` of the login/sign-up page: form validation, the request it
    sends, and how it reads the token and user id out of whatever the
    authentication endpoint answers. */
module LoginPage {

  import opened Wrappers
  import JsText
  import Sequences
  import Session

  /** A property of the response body: absent, `null`, or a string. */
  datatype Field = Missing | Null | Str(text: string)

  /** Not `null`/`undefined`: what `??` looks for. */
  predicate NonNullish(f: Field) {
    f.Str?
  }

  /** JavaScript truthiness of a field. */
  predicate Truthy(f: Field) {
    f.Str? && f.text != ""
  }

  /** The response body, flattened to the paths the page reads; a path whose
      parent object is missing reads as `Missing`. */
  datatype Body = Body(
    token: Field,              // data.token
    accessToken: Field,        // data.accessToken
    accessTokenSnake: Field,   // data.access_token
    nestedToken: Field,        // data.data.token
    userDotId: Field,          // data.user.id
    userDotObjectId: Field,    // data.user._id
    userIdField: Field,        // data.userId
    idField: Field,            // data.id
    objectIdField: Field,      // data._id
    nestedUserObjectId: Field, // data.data.user._id
    message: Field)            // data.message

  /** The values bound to the form inputs. */
  datatype Form = Form(isLogin: bool, email: string, password: string, fullName: string)

  datatype Payload =
    | Credentials(email: string, password: string)
    | Registration(name: string, email: string, password: string)

  datatype Request = Request(endpoint: string, payload: Payload)

  /** What `axios.post` does: resolve with a body, or reject with an error
      whose `response.data.message` and `message` may be present. */
  datatype Reply = Answered(body: Body) | Rejected(responseMessage: Field, errorMessage: Field)

  /** Everything `handleSubmit` does, as data: the request it sends, the
      arguments of each `auth.login` call, the two messages, and the route
      it navigates to. */
  datatype Effects = Effects(
    request: Option<Request>,
    loginCalls: seq<(string, string)>,
    errorMsg: string,
    successMsg: string,
    navigation: Option<string>)

  const FieldsRequired := "All fields are required"
  const NoTokenReturned := "Authentication succeeded but no token returned."
  const UnexpectedPrefix := "Unexpected server response: "
  const AuthFailed := "Authentication failed."

  /** `a ?? b ?? ...`: the first non-nullish field, `Missing` when none is. */
  function FirstNonNullish(fs: seq<Field>): (r: Field)
    ensures r.Str? ==> r in fs
    ensures r.Str? <==> exists i :: 0 <= i < |fs| && NonNullish(fs[i])
    ensures forall i :: 0 <= i < |fs| && NonNullish(fs[i]) && (forall j :: 0 <= j < i ==> !NonNullish(fs[j])) ==> r == fs[i]
    decreases |fs|
  {
    if |fs| == 0 then Missing
    else if NonNullish(fs[0]) then fs[0]
    else FirstNonNullish(fs[1..])
  }

  /** The four places a token is looked for, in order. */
  function TokenChain(b: Body): seq<Field> {
    [b.token, b.accessToken, b.accessTokenSnake, b.nestedToken]
  }

  /** The six places a user id is looked for, in order. */
  function UserIdChain(b: Body): seq<Field> {
    [b.userDotId, b.userDotObjectId, b.userIdField, b.idField, b.objectIdField, b.nestedUserObjectId]
  }

  /** The basic validation: `None` means the request is sent as given. */
  function Validate(f: Form): (r: Option<Request>)
    ensures r.None? <==> f.email == "" || f.password == "" || (!f.isLogin && f.fullName == "")
    ensures r.Some? && f.isLogin ==> r.value == Request("/users/login", Credentials(f.email, f.password))
    ensures r.Some? && !f.isLogin ==> r.value == Request("/users/signup", Registration(f.fullName, f.email, f.password))
  {
    if f.email == "" || f.password == "" || (!f.isLogin && f.fullName == "") then None
    else if f.isLogin then Some(Request("/users/login", Credentials(f.email, f.password)))
    else Some(Request("/users/signup", Registration(f.fullName, f.email, f.password)))
  }

  /** How the page reacts to the endpoint's reply. `stringify` stands for
      `JSON.stringify(res.data)`. */
  function Interpret(isLogin: bool, reply: Reply, stringify: Body -> string): (e: Effects)
    ensures e.request.None?
    ensures |e.loginCalls| <= 1
    ensures |e.loginCalls| == 1 <==> e.navigation == Some("/home")
    ensures |e.loginCalls| == 1 <==> e.errorMsg == ""
    ensures |e.loginCalls| == 1 <==> e.successMsg != ""
    ensures reply.Rejected? ==> e.loginCalls == [] && e.navigation.None?
    ensures reply.Rejected? && Truthy(reply.responseMessage) ==> e.errorMsg == reply.responseMessage.text
    ensures reply.Rejected? && !Truthy(reply.responseMessage) && Truthy(reply.errorMessage) ==>
      e.errorMsg == reply.errorMessage.text
    ensures reply.Rejected? && !Truthy(reply.responseMessage) && !Truthy(reply.errorMessage) ==>
      e.errorMsg == AuthFailed
    ensures reply.Answered? ==>
      var token := FirstNonNullish(TokenChain(reply.body));
      var userId := FirstNonNullish(UserIdChain(reply.body));
      && (Truthy(token) && Truthy(userId) ==>
            e.loginCalls == [(token.text, userId.text)]
            && e.successMsg == (if isLogin then "Login successful!" else "Signup successful!"))
      && (!Truthy(token) ==> e.errorMsg == NoTokenReturned)
      && (Truthy(token) && !Truthy(userId) && Truthy(reply.body.message) ==> e.errorMsg == reply.body.message.text)
      && (Truthy(token) && !Truthy(userId) && !Truthy(reply.body.message) ==>
            e.errorMsg == UnexpectedPrefix + Sequences.Prefix(stringify(reply.body), 300))
  {
    match reply
    case Rejected(responseMessage, errorMessage) =>
      var msg := if Truthy(responseMessage) then responseMessage.text
                 else if Truthy(errorMessage) then errorMessage.text
                 else AuthFailed;
      Effects(None, [], msg, "", None)
    case Answered(body) =>
      var token := FirstNonNullish(TokenChain(body));
      var userId := FirstNonNullish(UserIdChain(body));
      if Truthy(token) && Truthy(userId) then
        Effects(None, [(token.text, userId.text)], "",
                if isLogin then "Login successful!" else "Signup successful!", Some("/home"))
      else if !Truthy(token) then
        Effects(None, [], NoTokenReturned, "", None)
      else
        var msg := if Truthy(body.message) then body.message.text
                   else UnexpectedPrefix + Sequences.Prefix(stringify(body), 300);
        Effects(None, [], msg, "", None)
  }

  /** `handleSubmit`: validation first; the reply is consulted only when a
      request was sent. */
  function HandleSubmit(f: Form, reply: Reply, stringify: Body -> string): (e: Effects)
    ensures Validate(f).None? ==> e == Effects(None, [], FieldsRequired, "", None)
    ensures Validate(f).Some? ==> e == Interpret(f.isLogin, reply, stringify).(request := Validate(f))
  {
    match Validate(f)
    case None => Effects(None, [], FieldsRequired, "", None)
    case Some(req) => Interpret(f.isLogin, reply, stringify).(request := Some(req))
  }

  // ---------------------------------------------------------------------
  // Properties
  // ---------------------------------------------------------------------

  /** A missing field never reaches the network. */
  lemma MissingFieldSendsNothing(f: Form, reply: Reply, stringify: Body -> string)
    requires f.email == "" || f.password == "" || (!f.isLogin && f.fullName == "")
    ensures HandleSubmit(f, reply, stringify).request.None?
    ensures HandleSubmit(f, reply, stringify).loginCalls == []
    ensures HandleSubmit(f, reply, stringify).errorMsg == FieldsRequired
  {
  }

  /** A body with a truthy token and a truthy user id logs in exactly once,
      with those values, and goes home. */
  lemma SuccessLogsInOnce(f: Form, body: Body, stringify: Body -> string)
    requires Validate(f).Some?
    requires Truthy(FirstNonNullish(TokenChain(body))) && Truthy(FirstNonNullish(UserIdChain(body)))
    ensures HandleSubmit(f, Answered(body), stringify).loginCalls
            == [(FirstNonNullish(TokenChain(body)).text, FirstNonNullish(UserIdChain(body)).text)]
    ensures HandleSubmit(f, Answered(body), stringify).navigation == Some("/home")
  {
  }

  /** `??` selects an empty string rather than skipping it: an empty `token`
      hides a valid `accessToken` and the login is refused. */
  lemma EmptyTokenShadowsAccessToken(f: Form, body: Body, stringify: Body -> string)
    requires Validate(f).Some?
    requires body.token == Str("") && Truthy(body.accessToken)
    ensures FirstNonNullish(TokenChain(body)) == Str("")
    ensures HandleSubmit(f, Answered(body), stringify).errorMsg == NoTokenReturned
    ensures HandleSubmit(f, Answered(body), stringify).loginCalls == []
  {
  }

  /** A token without a user id yields the server's message when it has one,
      otherwise a prefix plus at most 300 characters of the body. */
  lemma TokenWithoutUserId(f: Form, body: Body, stringify: Body -> string)
    requires Validate(f).Some?
    requires Truthy(FirstNonNullish(TokenChain(body))) && !Truthy(FirstNonNullish(UserIdChain(body)))
    ensures HandleSubmit(f, Answered(body), stringify).loginCalls == []
    ensures Truthy(body.message) ==> HandleSubmit(f, Answered(body), stringify).errorMsg == body.message.text
    ensures !Truthy(body.message) ==>
      var m := HandleSubmit(f, Answered(body), stringify).errorMsg;
      JsText.StartsWith(m, UnexpectedPrefix) && |m| <= |UnexpectedPrefix| + 300
  {
  }

  /** Carrying the page's `auth.login` calls over to the session. */
  function ApplyLogins(s: Session.State, calls: seq<(string, string)>, parse: Session.PayloadParser): Session.State
    decreases |calls|
  {
    if |calls| == 0 then s
    else ApplyLogins(Session.Login(s, Some(calls[0].0), Some(calls[0].1), parse), calls[1..], parse)
  }

  /** A successful submit leaves the session logged in with the returned token
      and user id; any other outcome leaves the session as it was. */
  lemma SubmitThenSession(s: Session.State, f: Form, reply: Reply, stringify: Body -> string, parse: Session.PayloadParser)
    ensures var e := HandleSubmit(f, reply, stringify);
      |e.loginCalls| == 1 ==>
        && Session.IsLoggedIn(ApplyLogins(s, e.loginCalls, parse))
        && ApplyLogins(s, e.loginCalls, parse).token == e.loginCalls[0].0
        && ApplyLogins(s, e.loginCalls, parse).userId == e.loginCalls[0].1
    ensures var e := HandleSubmit(f, reply, stringify);
      |e.loginCalls| == 0 ==> ApplyLogins(s, e.loginCalls, parse) == s
  {
    var e := HandleSubmit(f, reply, stringify);
    if |e.loginCalls| == 1 {
      var c := e.loginCalls[0];
      assert c.0 != "" && c.1 != "";
      assert ApplyLogins(s, e.loginCalls, parse) == Session.Login(s, Some(c.0), Some(c.1), parse);
    }
  }
}

=== FILE: Navbar.dfy ===
/** The navigation bar: the search box, the profile menu and the cart badge. */
module Navbar {

  import opened Wrappers
  import JsText
  import opened Storefront
  import Session
  import Filters

  /** `handleSearch`: the trimmed term goes to the shared filter state and
      the route carries it, encoded by `encode` (`encodeURIComponent`). */
  function HandleSearch(input: string, filters: Filters.FilterState, encode: string -> string): (r: (Filters.FilterState, string))
    ensures r.0.searchTerm == JsText.Trim(input)
    ensures r.0.selectedCategory == filters.selectedCategory
    ensures JsText.Trim(input) == "" <==> r.1 == "/products"
    ensures JsText.Trim(input) != "" ==> r.1 == "/products?search=" + encode(JsText.Trim(input))
  {
    var term := JsText.Trim(input);
    (Filters.SetSearchTerm(filters, term), if term != "" then "/products?search=" + encode(term) else "/products")
  }

  /** Searching for the stored term again changes nothing: the term is
      already trimmed. */
  lemma SearchAgainIsStable(input: string, filters: Filters.FilterState, encode: string -> string)
    ensures var r := HandleSearch(input, filters, encode);
            HandleSearch(r.0.searchTerm, r.0, encode) == r
  {
    JsText.TrimIdempotent(input);
  }

  /** When the URL decoder undoes the encoder, the products page reads back
      exactly the term the navbar stored. */
  lemma SearchRoundTrip(input: string, filters: Filters.FilterState, encode: string -> string, decode: string -> string)
    requires forall t :: decode(encode(t)) == t
    requires JsText.Trim(input) != ""
    ensures var r := HandleSearch(input, filters, encode);
            var param := decode(r.1[|"/products?search="|..]);
            Filters.ApplySearchParam(Filters.Initial, param).searchTerm == r.0.searchTerm
  {
    var term := JsText.Trim(input);
    var route := "/products?search=" + encode(term);
    assert route[|"/products?search="|..] == encode(term);
  }

  datatype MenuEntry = ViewProfile | ViewDashboard | LogoutEntry | LoginEntry

  /** The profile drop-down for the given `isLoggedIn` and `isAdmin`. */
  function Menu(isLoggedIn: bool, isAdmin: bool): (r: seq<MenuEntry>)
    ensures LoginEntry in r <==> !isLoggedIn
    ensures ViewDashboard in r <==> isLoggedIn && isAdmin
    ensures ViewProfile in r <==> isLoggedIn
    ensures LogoutEntry in r <==> isLoggedIn
    ensures |r| > 0 && (isLoggedIn ==> r[0] == ViewProfile && r[|r| - 1] == LogoutEntry)
    ensures !isLoggedIn ==> r == [LoginEntry]
  {
    if isLoggedIn && isAdmin then [ViewProfile, ViewDashboard, LogoutEntry]
    else if isLoggedIn then [ViewProfile, LogoutEntry]
    else [LoginEntry]
  }

  /** The route an entry leads to. */
  function EntryRoute(e: MenuEntry): string {
    match e
    case ViewProfile => "/profile"
    case ViewDashboard => "/dashboard"
    case LogoutEntry => "/login"
    case LoginEntry => "/login"
  }

  /** `handleLogout`: log out, then go to the login page. */
  function HandleLogout(s: Session.State): (r: (Session.State, string))
    ensures !Session.IsLoggedIn(r.0) && !Session.IsAdmin(r.0)
    ensures r.1 == EntryRoute(LogoutEntry)
  {
    (Session.Logout(s), "/login")
  }

  /** The menu shown for a session state. */
  function SessionMenu(s: Session.State): seq<MenuEntry> {
    Menu(Session.IsLoggedIn(s), Session.IsAdmin(s))
  }

  /** After logging out only the login entry is offered. */
  lemma {:induction false} LogoutShowsLogin(s: Session.State)
    ensures SessionMenu(HandleLogout(s).0) == [LoginEntry]
  {
    var r := HandleLogout(s).0;
    assert !Session.IsLoggedIn(r);
  }

  /** A stale admin user left behind by a login without token gets no
      dashboard entry: the menu tests `isLoggedIn` first. */
  lemma {:induction false} StaleAdminSeesLogin(s: Session.State, t: Option<string>, u: Option<string>, parse: Session.PayloadParser)
    requires t.None? || t.value == ""
    ensures SessionMenu(Session.Login(s, t, u, parse)) == [LoginEntry]
  {
    var r := Session.Login(s, t, u, parse);
    assert !Session.IsLoggedIn(r);
  }

  /** The cart badge: the number of cart lines, shown only when there is one. */
  function CartBadge<T>(cartItems: seq<T>): (r: Option<nat>)
    ensures r.Some? <==> |cartItems| > 0
    ensures r.Some? ==> r.value == |cartItems|
  {
    if |cartItems| > 0 then Some(|cartItems|) else None
  }

  /** The badge counts lines, not units: two lines show 2 whatever their
      quantities. */
  lemma BadgeCountsLines(a: CartItem, b: CartItem)
    ensures CartBadge([a, b]) == Some(2)
  {
  }
}

=== FILE: ProductCard.dfy ===
/** The catalogue card: its review count and rating, the image it shows,
    the category chip, the stock badge and the add button. */
module ProductCard {

  import opened Wrappers
  import opened Sequences
  import JsText
  import opened Storefront
  import ProductDetailsPage
  import Dashboard

  /** `derivedReviewCount`. */
  function ReviewCount(p: Product): (r: int)
    ensures p.ratingsQuantity.Some? ==> r == p.ratingsQuantity.value
    ensures p.ratingsQuantity.None? ==> r >= 0
    ensures p.ratingsQuantity.None? ==> (r == 0 <==> p.reviews.None? || |p.reviews.value| == 0)
    ensures p.ratingsQuantity.None? && p.reviews.Some? ==> r == |p.reviews.value|
  {
    if p.ratingsQuantity.Some? then p.ratingsQuantity.value
    else if p.reviews.Some? then |p.reviews.value|
    else 0
  }

  /** `derivedAverageRating`: the stored average when positive, else the mean
      of the embedded reviews, else 0. */
  function AverageRating(p: Product): (r: real)
    ensures p.ratingsAverage.Some? && p.ratingsAverage.value > 0.0 ==> r == p.ratingsAverage.value
    ensures !(p.ratingsAverage.Some? && p.ratingsAverage.value > 0.0) ==>
      match p.reviews
      case Some(rs) =>
        (|rs| == 0 ==> r == 0.0)
        && (|rs| > 0 ==> r * (|rs| as real) == SumRatings(rs))
        && (forall lo, hi :: RatingsWithin(rs, lo, hi) ==> (|rs| > 0 ==> lo <= r <= hi))
      case None => r == 0.0
  {
    if p.ratingsAverage.Some? && p.ratingsAverage.value > 0.0 then p.ratingsAverage.value
    else if p.reviews.Some? && |p.reviews.value| > 0 then MeanRating(p.reviews.value)
    else 0.0
  }

  /** Whatever the stored average, the card never shows a negative rating
      when the reviews are rated non-negatively. */
  lemma {:induction false} AverageNeverNegative(p: Product)
    requires p.reviews.Some? ==> RatingsWithin(p.reviews.value, 0.0, 5.0)
    ensures AverageRating(p) >= 0.0
    ensures p.ratingsAverage.Some? && p.ratingsAverage.value <= 5.0 ==> AverageRating(p) <= 5.0
    ensures p.ratingsAverage.None? ==> AverageRating(p) <= 5.0
  {
    if p.reviews.Some? {
      var rs := p.reviews.value;
      assert RatingsWithin(rs, 0.0, 5.0);
    }
  }

  /** Without reviews or a stored average the card shows 0 where the product
      page shows 5. */
  lemma CardAndPageDisagreeWithoutReviews(p: Product)
    requires p.ratingsAverage.None? && p.reviews.None?
    ensures AverageRating(p) == 0.0 && ProductDetailsPage.AverageRating([]) == 5.0
  {
  }

  const Placeholder: string := "https://via.placeholder.com/300x300?text=No+Image"

  /** How a non-string value assigned to `src` is rendered. */
  const ObjectString: string := "[object Object]"

  /** The `src` of the card's image. */
  function ImageSource(p: Product): (r: string)
    ensures r != ""
    ensures p.imageUrl.ImageUrlList? && |p.imageUrl.urls| > 0 && p.imageUrl.urls[0] != "" ==>
      r == p.imageUrl.urls[0]
    ensures p.imageUrl.ImageUrlText? && JsText.Trim(p.imageUrl.text) != "" ==> r == p.imageUrl.text
    ensures FromImageUrl(p.imageUrl).None? && (p.images.None? || |p.images.value| == 0) ==> r == Placeholder
    ensures FromImageUrl(p.imageUrl).None? && p.images.Some? && |p.images.value| > 0 ==>
      match p.images.value[0]
      case ImageObject(u) => r == if Present(u) then u.value else ObjectString
      case ImageText(s) => r == if s != "" then s else Placeholder
  {
    match FromImageUrl(p.imageUrl)
    case Some(u) => u
    case None =>
      if p.images.Some? && |p.images.value| > 0 then
        match p.images.value[0]
        case ImageObject(u) => if Present(u) then u.value else ObjectString
        case ImageText(s) => if s != "" then s else Placeholder
      else Placeholder
  }

  /** The `imageUrl` branch: the array's first element when truthy, or a
      non-blank string. */
  function FromImageUrl(f: ImageUrlField): (r: Option<string>)
    ensures r.Some? ==> r.value != ""
    ensures r.Some? <==> ((f.ImageUrlList? && |f.urls| > 0 && f.urls[0] != "")
                          || (f.ImageUrlText? && JsText.Trim(f.text) != ""))
  {
    match f
    case ImageUrlList(urls) => if |urls| > 0 && urls[0] != "" then Some(urls[0]) else None
    case ImageUrlText(text) =>
      if JsText.Trim(text) != "" then
        Some(text)
      else None
    case NoImageUrl => None
  }

  /** An empty `imageUrl` array falls through to the legacy images here,
      while the product page shows no image at all. */
  lemma EmptyUrlListFallsThrough(p: Product, u: string)
    requires p.imageUrl == ImageUrlList([]) && p.images == Some([ImageText(u)]) && u != ""
    ensures ImageSource(p) == u
    ensures ProductDetailsPage.ProductImages(Some(p)) == []
  {
    ProductDetailsPage.EmptyUrlListHidesImages(p);
  }

  /** The category chip. */
  function CategoryLabel(p: Product, categories: seq<Category>): (r: string)
    ensures r != ""
    ensures r == ProductDetailsPage.Uncategorized
            || (p.category.Populated? && p.category.name == Some(r))
            || (p.category.CategoryId? && FindCategory(categories, p.category.ref).Some?
                && FindCategory(categories, p.category.ref).value.name == Some(r))
    ensures p.category.CategoryId? ==>
      match FindCategory(categories, p.category.ref)
      case Some(cat) => r == if Present(cat.name) then cat.name.value else ProductDetailsPage.Uncategorized
      case None => r == ProductDetailsPage.Uncategorized
    ensures p.category.Populated? && Present(p.category.name) ==> r == p.category.name.value
    ensures p.category.Populated? && !Present(p.category.name) ==> r == ProductDetailsPage.Uncategorized
    ensures (p.category.NullCategory? || p.category.NoCategory?) ==> r == ProductDetailsPage.Uncategorized
  {
    match p.category
    case Populated(_, name) => if Present(name) then name.value else ProductDetailsPage.Uncategorized
    case CategoryId(ref) =>
      var found := FindCategory(categories, ref);
      if found.Some? && Present(found.value.name) then found.value.name.value
      else ProductDetailsPage.Uncategorized
    case _ => ProductDetailsPage.Uncategorized
  }

  /** The card never shows an id string the category list does not name. */
  lemma {:induction false} NeverShowsRawId(p: Product, categories: seq<Category>)
    requires p.category.CategoryId?
    requires p.category.ref != ProductDetailsPage.Uncategorized
    requires forall i :: 0 <= i < |categories| ==> categories[i].name != Some(p.category.ref)
    ensures CategoryLabel(p, categories) != p.category.ref
  {
  }

  /** For an unresolved, non-blank id the product page shows "Category" and
      the card "Uncategorized". */
  lemma UnresolvedIdLabels(p: Product, categories: seq<Category>)
    requires p.category.CategoryId? && JsText.Trim(p.category.ref) != ""
    requires FindCategory(categories, p.category.ref).None?
    ensures CategoryLabel(p, categories) == ProductDetailsPage.Uncategorized
    ensures ProductDetailsPage.CategoryLabel(p.category, categories) == ProductDetailsPage.UnresolvedCategory
  {
  }

  datatype Badge = OutOfStock | LowStock

  /** The badge over the image. */
  function StockBadge(stock: int): (r: Option<Badge>)
    ensures r == Some(OutOfStock) <==> stock == 0
    ensures r == Some(LowStock) <==> 1 <= stock <= 5
    ensures r.None? <==> stock < 0 || stock > 5
  {
    if stock == 0 then Some(OutOfStock)
    else if 0 < stock <= 5 then Some(LowStock)
    else None
  }

  /** The add button is disabled exactly when the card says "Out of Stock". */
  lemma AddDisabledIffOutOfStock(stock: int)
    ensures ProductDetailsPage.AddDisabled(stock) <==> StockBadge(stock) == Some(OutOfStock)
  {
  }

  /** A stock of 6 to 10 carries no badge on the card, while the dashboard
      table calls it low. */
  lemma CardAndDashboardThresholds(stock: int)
    requires 6 <= stock <= 10
    ensures StockBadge(stock).None?
    ensures Dashboard.StockLabel(stock) == "Low Stock"
  {
  }
}

=== FILE: ProductDetailsPage.dfy ===
/** The product page: the image gallery list, the quantity stepper, the
    related-products strip, the rating shown with the stars, the repeated
    add-to-cart and the category badge. */
module ProductDetailsPage {

  import opened Wrappers
  import opened Sequences
  import JsText
  import opened Storefront

  // ---------------------------------------------------------------------
  // Gallery images
  // ---------------------------------------------------------------------

  /** The `imageUrl` field is truthy: an array always, a string when non-empty. */
  predicate ImageUrlTruthy(f: ImageUrlField) {
    f.ImageUrlList? || (f.ImageUrlText? && f.text != "")
  }

  /** The strings of an `imageUrl` array as gallery entries, one for one. */
  function AsTexts(us: seq<string>): (r: seq<ImageEntry>)
    ensures |r| == |us|
    ensures forall i :: 0 <= i < |us| ==> r[i] == ImageText(us[i])
  {
    seq(|us|, i requires 0 <= i < |us| => ImageText(us[i]))
  }

  /** `imageUrl.filter(Boolean)`: the non-empty strings, in order, each as
      often as it occurs. */
  function UrlGallery(us: seq<string>): (r: seq<ImageEntry>)
    ensures forall i :: 0 <= i < |r| ==> r[i].ImageText? && r[i].url != ""
    ensures SubsequenceOf(r, AsTexts(us))
    ensures forall u :: multiset(r)[ImageText(u)] == if u != "" then multiset(us)[u] else 0
    decreases |us|
  {
    if |us| == 0 then []
    else
      var rest := UrlGallery(us[1..]);
      var r := if us[0] != "" then [ImageText(us[0])] + rest else rest;
      UrlGalleryStep(us, rest, r);
      r
  }

  /** The contract of `UrlGallery`. */
  ghost predicate GalleryOf(us: seq<string>, r: seq<ImageEntry>) {
    && (forall i :: 0 <= i < |r| ==> r[i].ImageText? && r[i].url != "")
    && SubsequenceOf(r, AsTexts(us))
    && (forall u :: multiset(r)[ImageText(u)] == if u != "" then multiset(us)[u] else 0)
  }

  /** One step of `UrlGallery`: the head string is kept or dropped. */
  lemma UrlGalleryStep(us: seq<string>, rest: seq<ImageEntry>, r: seq<ImageEntry>)
    requires |us| > 0
    requires GalleryOf(us[1..], rest)
    requires r == if us[0] != "" then [ImageText(us[0])] + rest else rest
    ensures GalleryOf(us, r)
  {
    assert AsTexts(us)[1..] == AsTexts(us[1..]);
    assert us == [us[0]] + us[1..];
    if us[0] == "" {
      SubsequenceCons(rest, AsTexts(us));
    } else {
      assert r[1..] == rest;
    }
  }

  /** `productImages`: the gallery entries, `imageUrl` first, then the legacy
      `images` array. Strings of an `imageUrl` array become `ImageText`
      entries. Each filtered case is pinned by order (a subsequence) and by
      multiplicity (every kept value exactly as often as in the input). */
  function ProductImages(product: Option<Product>): (r: seq<ImageEntry>)
    ensures product.None? ==> r == []
    ensures forall i :: 0 <= i < |r| ==> ImageTruthy(r[i])
    ensures product.Some? && product.value.imageUrl.ImageUrlList? ==>
      var us := product.value.imageUrl.urls;
      (forall i :: 0 <= i < |r| ==> r[i].ImageText?)
      && SubsequenceOf(r, AsTexts(us))
      && (forall u :: multiset(r)[ImageText(u)] == if u != "" then multiset(us)[u] else 0)
    ensures product.Some? && product.value.imageUrl.ImageUrlText?
            && JsText.Trim(product.value.imageUrl.text) != "" ==>
      r == [ImageText(product.value.imageUrl.text)]
    ensures product.Some? && !product.value.imageUrl.ImageUrlList?
            && !(product.value.imageUrl.ImageUrlText? && JsText.Trim(product.value.imageUrl.text) != "") ==>
      match product.value.images
      case None => r == []
      case Some(es) =>
        SubsequenceOf(r, es)
        && forall e :: multiset(r)[e] == if ImageTruthy(e) then multiset(es)[e] else 0
  {
    if product.None? then []
    else
      var p := product.value;
      if ImageUrlTruthy(p.imageUrl) && p.imageUrl.ImageUrlList? then
        UrlGallery(p.imageUrl.urls)
      else if ImageUrlTruthy(p.imageUrl) && JsText.Trim(p.imageUrl.text) != "" then
        [ImageText(p.imageUrl.text)]
      else if p.images.Some? then
        Filter(p.images.value, ImageTruthy)
      else
        []
  }

  /** An empty `imageUrl` array is truthy, so the legacy `images` are never
      consulted and the gallery is empty. */
  lemma EmptyUrlListHidesImages(p: Product)
    requires p.imageUrl == ImageUrlList([])
    ensures ProductImages(Some(p)) == []
  {
  }

  // ---------------------------------------------------------------------
  // Quantity stepper
  // ---------------------------------------------------------------------

  const InitialQuantity: int := 1

  /** The minus button: `Math.max(1, quantity - 1)`. */
  function Decrement(quantity: int): (r: int)
    ensures r >= 1
    ensures r <= quantity || quantity < 1
    ensures quantity > 1 ==> r == quantity - 1
    ensures quantity <= 1 ==> r == 1
  {
    if quantity - 1 > 1 then quantity - 1 else 1
  }

  /** The plus button: `Math.min(product.stock, quantity + 1)`. */
  function Increment(quantity: int, stock: int): (r: int)
    ensures r <= stock && r <= quantity + 1
    ensures quantity < stock ==> r == quantity + 1
    ensures quantity >= stock ==> r == stock
  {
    if stock < quantity + 1 then stock else quantity + 1
  }

  /** With stock on hand the quantity stays within `1..stock` under any
      presses of either button, starting from the initial quantity. */
  lemma {:induction false} StepperStaysInRange(presses: seq<bool>, stock: int)
    requires stock >= 1
    ensures 1 <= Press(InitialQuantity, presses, stock) <= stock
  {
    PressKeepsRange(InitialQuantity, presses, stock);
  }

  /** The quantity after a sequence of presses (`true` for plus). */
  function Press(quantity: int, presses: seq<bool>, stock: int): int
    decreases |presses|
  {
    if |presses| == 0 then quantity
    else Press(if presses[0] then Increment(quantity, stock) else Decrement(quantity), presses[1..], stock)
  }

  lemma {:induction false} PressKeepsRange(quantity: int, presses: seq<bool>, stock: int)
    requires 1 <= quantity <= stock
    ensures 1 <= Press(quantity, presses, stock) <= stock
    decreases |presses|
  {
    if |presses| > 0 {
      PressKeepsRange(if presses[0] then Increment(quantity, stock) else Decrement(quantity), presses[1..], stock);
    }
  }

  /** Out of stock, the plus button drops the quantity to the stock figure,
      below one. */
  lemma IncrementOutOfStock(stock: int)
    requires stock < 1
    ensures Increment(InitialQuantity, stock) == stock && Increment(InitialQuantity, stock) < 1
  {
  }

  // ---------------------------------------------------------------------
  // Related products
  // ---------------------------------------------------------------------

  /** `category?._id`: the id of a populated category, `undefined` otherwise. */
  function CategoryObjectId(c: CategoryRef): (r: Option<string>)
    ensures r.Some? ==> c.Populated?
  {
    if c.Populated? then c.id else None
  }

  /** `a === b` on two category fields taken from separate responses:
      populated objects are never the same object; strings compare by value;
      `null === null` and `undefined === undefined`. */
  predicate SameCategoryValue(a: CategoryRef, b: CategoryRef) {
    match a
    case Populated(_, _) => false
    case CategoryId(x) => b.CategoryId? && b.ref == x
    case NullCategory => b.NullCategory?
    case NoCategory => b.NoCategory?
  }

  /** The filter callback as written. */
  predicate RelatedAsWritten(product: Product, p: Product) {
    p.id != product.id
    && (CategoryObjectId(p.category) == CategoryObjectId(product.category)
        || SameCategoryValue(p.category, product.category))
  }

  /** The filter callback as written, for one page product. */
  function RelatedAsWrittenTo(product: Product): Product -> bool {
    (p: Product) => RelatedAsWritten(product, p)
  }

  /** `related` as written: `filter(...).slice(0, 4)`. The result is what the
      callback accepts from some prefix of the catalogue, so it holds the
      first accepted products, at most four. */
  function RelatedProductsAsWritten(product: Product, catalogue: seq<Product>): (r: seq<Product>)
    ensures |r| <= 4
    ensures SubsequenceOf(r, catalogue)
    ensures forall i :: 0 <= i < |r| ==> RelatedAsWritten(product, r[i])
    ensures var n := Count(catalogue, RelatedAsWrittenTo(product));
            |r| == if n < 4 then n else 4
    ensures exists m :: 0 <= m <= |catalogue| && r == Filter(catalogue[..m], RelatedAsWrittenTo(product))
  {
    FirstKept(catalogue, RelatedAsWrittenTo(product), 4)
  }

  /** Two products whose categories are different bare id strings are
      related as written: both `?._id` are `undefined`. */
  lemma StringCategoriesAlwaysRelated()
    ensures var chair := Product("p1", "Chair", None, CategoryId("seating"), NoImageUrl, None, 3, 100, None, None, None);
            var lamp := Product("p2", "Lamp", None, CategoryId("lighting"), NoImageUrl, None, 3, 100, None, None, None);
            RelatedProductsAsWritten(chair, [lamp]) == [lamp]
            && !Related(chair, lamp)
  {
    var chair := Product("p1", "Chair", None, CategoryId("seating"), NoImageUrl, None, 3, 100, None, None, None);
    var lamp := Product("p2", "Lamp", None, CategoryId("lighting"), NoImageUrl, None, 3, 100, None, None, None);
    assert RelatedAsWritten(chair, lamp);
    assert Filter([lamp], RelatedAsWrittenTo(chair)) == [lamp];
  }

  /** The category a field designates: the populated object's `_id` or the
      bare id string; nothing for `null`, absent, or an object without id. */
  function CategoryKey(c: CategoryRef): (r: Option<string>)
    ensures r.Some? <==> (c.Populated? && c.id.Some?) || c.CategoryId?
    ensures c.CategoryId? ==> r == Some(c.ref)
    ensures c.Populated? ==> r == c.id
  {
    match c
    case Populated(id, _) => id
    case CategoryId(ref) => Some(ref)
    case _ => None
  }

  /** Another product of the same, known category. */
  predicate Related(product: Product, p: Product) {
    p.id != product.id
    && CategoryKey(product.category).Some?
    && CategoryKey(p.category) == CategoryKey(product.category)
  }

  /** `Related` for one page product. */
  function RelatedTo(product: Product): Product -> bool {
    (p: Product) => Related(product, p)
  }

  /** The related-products strip: the first four other products of the same
      category, in catalogue order. */
  function RelatedProducts(product: Product, catalogue: seq<Product>): (r: seq<Product>)
    ensures SubsequenceOf(r, catalogue)
    ensures forall i :: 0 <= i < |r| ==> r[i].id != product.id && Related(product, r[i])
    ensures var n := Count(catalogue, RelatedTo(product));
            |r| == if n < 4 then n else 4
    ensures |r| < 4 ==>
      forall i :: 0 <= i < |catalogue| && Related(product, catalogue[i]) ==> catalogue[i] in r
    ensures exists m :: 0 <= m <= |catalogue| && r == Filter(catalogue[..m], RelatedTo(product))
  {
    FirstKept(catalogue, RelatedTo(product), 4)
  }

  /** Where both products carry populated categories with ids, the code as
      written already selects exactly the related products. */
  lemma AsWrittenAgreesOnPopulated(product: Product, p: Product)
    requires product.category.Populated? && product.category.id.Some?
    requires p.category.Populated? && p.category.id.Some?
    ensures RelatedAsWritten(product, p) <==> Related(product, p)
  {
  }

  // ---------------------------------------------------------------------
  // Rating, add to cart, labels
  // ---------------------------------------------------------------------

  /** The rating beside the stars: the mean of the fetched reviews, 5 with none. */
  function AverageRating(reviews: seq<Review>): (r: real)
    ensures |reviews| == 0 ==> r == 5.0
    ensures |reviews| > 0 ==> r * (|reviews| as real) == SumRatings(reviews)
    ensures forall lo, hi :: RatingsWithin(reviews, lo, hi) && lo <= 5.0 <= hi ==> lo <= r <= hi
    ensures |reviews| > 0 ==> forall lo, hi :: RatingsWithin(reviews, lo, hi) ==> lo <= r <= hi
  {
    if |reviews| > 0 then MeanRating(reviews) else 5.0
  }

  /** `addToCart` applied `n` times to the same product. */
  function AddTimes<C>(add: (C, Product) -> C, cart: C, product: Product, n: nat): C
    decreases n
  {
    if n == 0 then cart else add(AddTimes(add, cart, product, n - 1), product)
  }

  /** `handleAddToCart`: calls the cart's `addToCart(product)` once per unit
      of the selected quantity; `calls` lists the arguments in call order. */
  method HandleAddToCart<C>(add: (C, Product) -> C, cart: C, product: Product, quantity: int)
    returns (result: C, calls: seq<Product>)
    ensures |calls| == if quantity > 0 then quantity else 0
    ensures forall i :: 0 <= i < |calls| ==> calls[i] == product
    ensures result == AddTimes(add, cart, product, |calls|)
  {
    result := cart;
    calls := [];
    var i := 0;
    while i < quantity
      invariant 0 <= i <= if quantity > 0 then quantity else 0
      invariant |calls| == i
      invariant forall k :: 0 <= k < i ==> calls[k] == product
      invariant result == AddTimes(add, cart, product, i)
    {
      result := add(result, product);
      calls := calls + [product];
      i := i + 1;
    }
  }

  const Uncategorized: string := "Uncategorized"
  const UnresolvedCategory: string := "Category"

  /** The category badge above the product name. */
  function CategoryLabel(c: CategoryRef, categories: seq<Category>): (r: string)
    ensures r != ""
    ensures c.Populated? && !Present(c.name) ==> r == Uncategorized
    ensures c.Populated? && Present(c.name) ==> r == c.name.value
    ensures c.CategoryId? && JsText.Trim(c.ref) != "" ==>
      match FindCategory(categories, c.ref)
      case Some(cat) => r == if Present(cat.name) then cat.name.value else UnresolvedCategory
      case None => r == UnresolvedCategory
    ensures (c.NullCategory? || c.NoCategory? || (c.CategoryId? && JsText.Trim(c.ref) == "")) ==>
      r == Uncategorized
    ensures r == UnresolvedCategory ==> c.CategoryId? || (c.Populated? && c.name == Some(UnresolvedCategory))
  {
    match c
    case Populated(_, name) => if Present(name) then name.value else Uncategorized
    case CategoryId(ref) =>
      if JsText.Trim(ref) != "" then
        var found := FindCategory(categories, ref);
        if found.Some? && Present(found.value.name) then found.value.name.value else UnresolvedCategory
      else Uncategorized
    case _ => Uncategorized
  }

  /** The stock line under the price. */
  datatype StockLine = InStock(count: int) | SoldOut | NoStockLine

  function StockMessage(stock: int): (r: StockLine)
    ensures r.InStock? <==> stock > 0
    ensures r.InStock? ==> r.count == stock
    ensures r == SoldOut <==> stock == 0
  {
    if stock > 0 then InStock(stock) else if stock == 0 then SoldOut else NoStockLine
  }

  /** The add-to-cart button is disabled only for a stock of exactly zero. */
  predicate AddDisabled(stock: int) {
    stock == 0
  }

  /** A negative stock shows no stock line and leaves the button enabled. */
  lemma NegativeStockStillAddable(stock: int)
    requires stock < 0
    ensures StockMessage(stock) == NoStockLine && !AddDisabled(stock)
  {
  }
}

=== FILE: ProductsPage.dfy ===
/** The products page's `filteredProducts`: a case-insensitive search on name
    and description combined with the selected category. */
module ProductsPage {

  import opened Wrappers
  import opened Sequences
  import opened Storefront
  import JsText

  /** `name.toLowerCase().includes(term.toLowerCase())`, or the same on the
      description when the product has one. */
  predicate MatchesSearch(p: Product, term: string) {
    var t := JsText.ToLower(term);
    JsText.Includes(JsText.ToLower(p.name), t)
    || (p.description.Some? && JsText.Includes(JsText.ToLower(p.description.value), t))
  }

  /** The category test as written: `typeof null` is `"object"`, so a `null`
      category reaches `null._id` and throws (`None`) once a category is
      selected. */
  function CategoryMatchAsWritten(p: Product, selected: string): (r: Option<bool>)
    ensures selected == "" ==> r == Some(true)
    ensures r.None? <==> selected != "" && p.category.NullCategory?
  {
    if selected == "" then Some(true)
    else match p.category
      case Populated(id, _) => Some(id == Some(selected))
      case NullCategory => None
      case CategoryId(ref) => Some(ref == selected)
      case NoCategory => Some(false)
  }

  /** The filter as written: the callback computes both tests for every
      product, so one throwing test makes the whole page throw. */
  function FilterProductsAsWritten(ps: seq<Product>, term: string, selected: string): (r: Option<seq<Product>>)
    ensures r.None? <==> selected != "" && exists i :: 0 <= i < |ps| && ps[i].category.NullCategory?
    decreases |ps|
  {
    if |ps| == 0 then Some([])
    else
      var c := CategoryMatchAsWritten(ps[0], selected);
      var rest := FilterProductsAsWritten(ps[1..], term, selected);
      if c.None? then None
      else if rest.None? then None
      else Some(if MatchesSearch(ps[0], term) && c.value then [ps[0]] + rest.value else rest.value)
  }

  /** Selecting a category after one of the listed products lost its
      category (the backend populates it as `null`) makes the page throw. */
  lemma NullCategoryThrows(p: Product, term: string, selected: string)
    requires p.category.NullCategory? && selected != ""
    ensures FilterProductsAsWritten([p], term, selected).None?
  {
  }

  /** The corrected category test: an empty selection matches everything; a
      populated category matches on its `_id`, a bare id on itself, and a
      `null` or missing category matches no selected category. */
  predicate CategoryMatch(p: Product, selected: string) {
    selected == ""
    || (p.category.Populated? && p.category.id == Some(selected))
    || (p.category.CategoryId? && p.category.ref == selected)
  }

  predicate Keep(p: Product, term: string, selected: string) {
    MatchesSearch(p, term) && CategoryMatch(p, selected)
  }

  /** `filteredProducts`, with the corrected category test. */
  function FilterProducts(ps: seq<Product>, term: string, selected: string): (r: seq<Product>)
    ensures |r| <= |ps| && SubsequenceOf(r, ps)
    ensures forall i :: 0 <= i < |r| ==> Keep(r[i], term, selected)
    ensures forall i :: 0 <= i < |ps| && Keep(ps[i], term, selected) ==> ps[i] in r
    ensures forall p :: multiset(r)[p] == if Keep(p, term, selected) then multiset(ps)[p] else 0
  {
    Filter(ps, (p: Product) => Keep(p, term, selected))
  }

  /** Where the written filter does not throw, it agrees with the corrected one. */
  lemma {:induction false} AsWrittenAgrees(ps: seq<Product>, term: string, selected: string)
    requires FilterProductsAsWritten(ps, term, selected).Some?
    ensures FilterProductsAsWritten(ps, term, selected) == Some(FilterProducts(ps, term, selected))
    decreases |ps|
  {
    if |ps| > 0 {
      AsWrittenAgrees(ps[1..], term, selected);
    }
  }

  /** An empty search term matches every product. */
  lemma EmptySearchMatches(p: Product)
    ensures MatchesSearch(p, "")
  {
    JsText.IncludesEmpty(JsText.ToLower(p.name));
  }

  /** With no search term and no category, every product is shown, in order. */
  lemma NoFiltersShowsAll(ps: seq<Product>)
    ensures FilterProducts(ps, "", "") == ps
  {
    forall p | p in ps ensures Keep(p, "", "") {
      EmptySearchMatches(p);
    }
    FilterAll(ps, (p: Product) => Keep(p, "", ""));
  }

  /** The search ignores ASCII case on both sides. */
  lemma SearchIgnoresCase(p: Product, term: string)
    ensures MatchesSearch(p, term) == MatchesSearch(p, JsText.ToLower(term))
  {
    JsText.ToLowerIdempotent(term);
  }
}

=== FILE: ProfilePage.dfy ===
/** The profile page: the login guard, the email shown for the user, the
    filter that picks the user's own orders out of all orders, and the
    status colours of the order list. */
module ProfilePage {

  import opened Wrappers
  import opened Sequences
  import JsText
  import opened Storefront
  import Session
  import Dashboard

  /** The page's `user` state cell. */
  datatype ProfileUser = ProfileUser(id: string, email: string)

  /** The value the `user` cell starts with, before the effect sets it. */
  const InitialUser := ProfileUser("guest", "guest@example.com")

  /** The email taken from the token payload; `""` when the payload cannot
      be decoded or carries no email. */
  function DerivedEmail(token: string, parse: Session.PayloadParser): (r: string)
    ensures Session.DecodeClaims(token, parse).None? ==> r == ""
    ensures r != "" ==> Session.DecodeClaims(token, parse).Some?
                        && Session.DecodeClaims(token, parse).value.email == Some(r)
  {
    match Session.DecodeClaims(token, parse)
    case Some(claims) => OrEmpty(claims.email)
    case None => ""
  }

  /** The profile shows the email the session derived from the same token. */
  lemma {:induction false} DerivedEmailMatchesSession(store: Session.Store, parse: Session.PayloadParser)
    requires Session.GetOrEmpty(store, Session.TokenKey) != ""
    ensures var s := Session.Init(store, parse);
            s.user.Some?
            && DerivedEmail(s.token, parse) == match s.user.value.claims
                                              case Some(c) => OrEmpty(c.email)
                                              case None => ""
  {
    var token := Session.GetOrEmpty(store, Session.TokenKey);
    var u := Session.DeriveUser(token, Session.GetOrEmpty(store, Session.UserIdKey), parse);
    assert u.claims == Session.DecodeClaims(token, parse);
  }

  /** `String(o.user)`: an id string as is, a populated document as
      JavaScript prints any object. */
  function UserString(u: UserRef): (r: string)
    ensures u.UserIdRef? ==> r == u.ref
    ensures u.UserDocument? ==> r == "[object Object]"
  {
    match u
    case UserIdRef(ref) => ref
    case UserDocument => "[object Object]"
  }

  predicate UserTruthy(u: UserRef) {
    u.UserDocument? || u.ref != ""
  }

  /** The filter callback, with `email` the email of the `user` value it
      reads. */
  predicate Owns(o: Order, userId: string, email: string) {
    if o.user.Some? && UserTruthy(o.user.value) && userId != "" then UserString(o.user.value) == userId
    else if Present(o.shippingEmail) && email != "" then o.shippingEmail.value == email
    else false
  }

  /** An order carrying a user is the user's exactly when it names the user id. */
  lemma UserFieldDecides(o: Order, userId: string, email: string)
    requires o.user.Some? && UserTruthy(o.user.value) && userId != ""
    ensures Owns(o, userId, email) <==> UserString(o.user.value) == userId
  {
  }

  /** An order without a user is the user's exactly when its shipping email
      is the (non-empty) email compared against. */
  lemma ShippingEmailDecides(o: Order, userId: string, email: string)
    requires o.user.None? || !UserTruthy(o.user.value)
    ensures Owns(o, userId, email) <==> email != "" && o.shippingEmail == Some(email)
  {
  }

  /** `(data || []).filter(...)`. */
  function OwnedOrders(data: Option<seq<Order>>, userId: string, email: string): (r: seq<Order>)
    ensures SubsequenceOf(r, data.GetOr([]))
    ensures forall i :: 0 <= i < |r| ==> Owns(r[i], userId, email)
    ensures var all := data.GetOr([]);
            forall i :: 0 <= i < |all| && Owns(all[i], userId, email) ==> all[i] in r
    ensures forall o :: multiset(r)[o] == if Owns(o, userId, email) then multiset(data.GetOr([]))[o] else 0
    ensures data.None? ==> r == []
  {
    Filter(data.GetOr([]), (o: Order) => Owns(o, userId, email))
  }

  /** What the page ends up showing. */
  datatype Profile = RedirectToLogin | Loaded(user: ProfileUser, orders: seq<Order>)

  /** The effect as written: the filter reads the `user` captured when the
      effect was created, which is still `InitialUser`. */
  function LoadAsWritten(store: Session.Store, parse: Session.PayloadParser, data: Option<seq<Order>>): (r: Profile)
    ensures r == RedirectToLogin <==>
      Session.GetOrEmpty(store, Session.TokenKey) == "" || Session.GetOrEmpty(store, Session.UserIdKey) == ""
    ensures r.Loaded? ==> r.orders == OwnedOrders(data, Session.GetOrEmpty(store, Session.UserIdKey), InitialUser.email)
  {
    var token := Session.GetOrEmpty(store, Session.TokenKey);
    var userId := Session.GetOrEmpty(store, Session.UserIdKey);
    if token == "" || userId == "" then RedirectToLogin
    else Loaded(ProfileUser(userId, DerivedEmail(token, parse)), OwnedOrders(data, userId, InitialUser.email))
  }

  /** The effect comparing against the email it has just derived. */
  function Load(store: Session.Store, parse: Session.PayloadParser, data: Option<seq<Order>>): (r: Profile)
    ensures r == RedirectToLogin <==>
      Session.GetOrEmpty(store, Session.TokenKey) == "" || Session.GetOrEmpty(store, Session.UserIdKey) == ""
    ensures r.Loaded? ==>
      var token := Session.GetOrEmpty(store, Session.TokenKey);
      var userId := Session.GetOrEmpty(store, Session.UserIdKey);
      r.user == ProfileUser(userId, DerivedEmail(token, parse))
      && r.orders == OwnedOrders(data, userId, r.user.email)
  {
    var token := Session.GetOrEmpty(store, Session.TokenKey);
    var userId := Session.GetOrEmpty(store, Session.UserIdKey);
    if token == "" || userId == "" then RedirectToLogin
    else
      var user := ProfileUser(userId, DerivedEmail(token, parse));
      Loaded(user, OwnedOrders(data, userId, user.email))
  }

  /** A guest checkout placed under the signed-in user's own email is missing
      from that user's profile as written, and present once the derived
      email is used. */
  lemma {:induction false} StaleEmailHidesOwnOrder(store: Session.Store, parse: Session.PayloadParser, o: Order)
    requires Session.GetOrEmpty(store, Session.TokenKey) != "" && Session.GetOrEmpty(store, Session.UserIdKey) != ""
    requires var e := DerivedEmail(Session.GetOrEmpty(store, Session.TokenKey), parse);
             e != "" && e != InitialUser.email && o.shippingEmail == Some(e)
    requires o.user.None?
    ensures o !in LoadAsWritten(store, parse, Some([o])).orders
    ensures Load(store, parse, Some([o])).orders == [o]
  {
    var userId := Session.GetOrEmpty(store, Session.UserIdKey);
    var e := DerivedEmail(Session.GetOrEmpty(store, Session.TokenKey), parse);
    assert Owns(o, userId, e);
    var kept := OwnedOrders(Some([o]), userId, e);
    SubsequenceLength(kept, [o]);
  }

  /** As written, every signed-in user sees the guest account's orders. */
  lemma GuestOrdersShownToEveryone(store: Session.Store, parse: Session.PayloadParser, o: Order)
    requires Session.GetOrEmpty(store, Session.TokenKey) != "" && Session.GetOrEmpty(store, Session.UserIdKey) != ""
    requires o.user.None? && o.shippingEmail == Some(InitialUser.email)
    ensures o in LoadAsWritten(store, parse, Some([o])).orders
  {
  }

  // ---------------------------------------------------------------------
  // Status colours
  // ---------------------------------------------------------------------

  const Gray := "bg-gray-100 text-gray-800"

  /** `getStatusColor`. */
  function StatusColor(status: Option<string>): (r: string)
    ensures r == Gray <==> status.None? || JsText.ToLower(status.value) !in Dashboard.StatusWords
  {
    if status.None? then Gray
    else
      var s := JsText.ToLower(status.value);
      if s == "pending" then "bg-yellow-100 text-yellow-800"
      else if s == "processing" then "bg-blue-100 text-blue-800"
      else if s == "shipped" then "bg-purple-100 text-purple-800"
      else if s == "delivered" then "bg-green-100 text-green-800"
      else if s == "cancelled" then "bg-red-100 text-red-800"
      else Gray
  }

  /** The colour depends only on the lower-cased status. */
  lemma StatusColorIgnoresCase(a: string, b: string)
    requires JsText.ToLower(a) == JsText.ToLower(b)
    ensures StatusColor(Some(a)) == StatusColor(Some(b))
  {
  }

  /** A status gets a colour of its own exactly when the dashboard counts it
      under one of its five cards. */
  lemma {:induction false} ColouredIffCounted(o: Order)
    ensures StatusColor(o.status) != Gray <==> Dashboard.LowerStatus(o) in Dashboard.StatusWords
  {
  }
}

=== FILE: Sequences.dfy ===
/** `Array.prototype.filter`, `map`, `find` and counting, with the facts the
    pages rely on: a filter keeps exactly the wanted elements, in order. */
module Sequences {

  import opened Wrappers

  /** `sub` can be obtained from `s` by deleting elements (order kept). */
  predicate SubsequenceOf<T(==)>(sub: seq<T>, s: seq<T>)
    decreases |s|
  {
    if |sub| == 0 then true
    else if |s| == 0 then false
    else if sub[0] == s[0] then SubsequenceOf(sub[1..], s[1..])
    else SubsequenceOf(sub, s[1..])
  }

  lemma {:induction false} SubsequenceLength<T>(sub: seq<T>, s: seq<T>)
    requires SubsequenceOf(sub, s)
    ensures |sub| <= |s|
    decreases |s|
  {
    if |sub| > 0 {
      if sub[0] == s[0] {
        SubsequenceLength(sub[1..], s[1..]);
      } else {
        SubsequenceLength(sub, s[1..]);
      }
    }
  }

  lemma {:induction false} SubsequenceMembers<T>(sub: seq<T>, s: seq<T>, x: T)
    requires SubsequenceOf(sub, s)
    requires x in sub
    ensures x in s
    decreases |s|
  {
    if sub[0] == s[0] {
      if x != sub[0] {
        SubsequenceMembers(sub[1..], s[1..], x);
      }
    } else {
      SubsequenceMembers(sub, s[1..], x);
    }
  }

  /** Every sequence is a subsequence of itself. */
  lemma {:induction false} SubsequenceRefl<T>(s: seq<T>)
    ensures SubsequenceOf(s, s)
    decreases |s|
  {
    if |s| > 0 {
      SubsequenceRefl(s[1..]);
    }
  }

  /** Inserting an element in front of the larger sequence keeps a
      subsequence a subsequence. */
  lemma {:induction false} SubsequenceCons<T>(sub: seq<T>, s: seq<T>)
    requires |s| > 0 && SubsequenceOf(sub, s[1..])
    ensures SubsequenceOf(sub, s)
    decreases |s|, 0
  {
    if |sub| > 0 && sub[0] == s[0] {
      SubsequenceDropHead(sub, s[1..]);
    }
  }

  /** Dropping the first element of a subsequence keeps it a subsequence. */
  lemma {:induction false} SubsequenceDropHead<T>(sub: seq<T>, s: seq<T>)
    requires |sub| > 0 && SubsequenceOf(sub, s)
    ensures SubsequenceOf(sub[1..], s)
    decreases |s|, 1
  {
    if sub[0] == s[0] {
      SubsequenceCons(sub[1..], s);
    } else {
      SubsequenceDropHead(sub, s[1..]);
      SubsequenceCons(sub[1..], s);
    }
  }

  lemma {:induction false} SubsequenceTrans<T>(a: seq<T>, b: seq<T>, c: seq<T>)
    requires SubsequenceOf(a, b) && SubsequenceOf(b, c)
    ensures SubsequenceOf(a, c)
    decreases |c|
  {
    if |a| > 0 {
      if b[0] == c[0] {
        if a[0] == b[0] {
          SubsequenceTrans(a[1..], b[1..], c[1..]);
        } else {
          SubsequenceTrans(a, b[1..], c[1..]);
          SubsequenceCons(a, c);
        }
      } else {
        SubsequenceTrans(a, b, c[1..]);
        SubsequenceCons(a, c);
      }
    }
  }

  /** A prefix is a subsequence. */
  lemma {:induction false} PrefixSubsequence<T>(s: seq<T>, k: nat)
    requires k <= |s|
    ensures SubsequenceOf(s[..k], s)
    decreases |s|
  {
    if k > 0 {
      assert s[..k][1..] == s[1..][..k - 1];
      PrefixSubsequence(s[1..], k - 1);
    }
  }

  /** `s.slice(0, n)`. */
  function Prefix<T>(s: seq<T>, n: nat): (r: seq<T>)
    ensures |r| == if |s| < n then |s| else n
    ensures SubsequenceOf(r, s)
    ensures forall i :: 0 <= i < |r| ==> r[i] == s[i]
  {
    var k := if |s| < n then |s| else n;
    PrefixSubsequence(s, k);
    s[..k]
  }

  /** `s.filter(keep)`: the elements satisfying `keep`, in their order, each
      as often as it occurs in `s`. */
  function Filter<T(==,!new)>(s: seq<T>, keep: T -> bool): (r: seq<T>)
    ensures |r| <= |s|
    ensures SubsequenceOf(r, s)
    ensures forall i :: 0 <= i < |r| ==> keep(r[i])
    ensures forall i :: 0 <= i < |s| && keep(s[i]) ==> s[i] in r
    ensures forall x :: multiset(r)[x] == if keep(x) then multiset(s)[x] else 0
    decreases |s|
  {
    if |s| == 0 then []
    else
      assert s == [s[0]] + s[1..];
      if keep(s[0]) then [s[0]] + Filter(s[1..], keep)
      else Filter(s[1..], keep)
  }

  /** Filtering a concatenation filters each part. */
  lemma {:induction false} FilterAppend<T(!new)>(a: seq<T>, b: seq<T>, keep: T -> bool)
    ensures Filter(a + b, keep) == Filter(a, keep) + Filter(b, keep)
    decreases |a|
  {
    if |a| == 0 {
      assert a + b == b;
    } else {
      assert (a + b)[1..] == a[1..] + b;
      FilterAppend(a[1..], b, keep);
    }
  }

  /** A filter whose predicate holds everywhere keeps the whole sequence. */
  lemma {:induction false} FilterAll<T(!new)>(s: seq<T>, keep: T -> bool)
    requires forall x :: x in s ==> keep(x)
    ensures Filter(s, keep) == s
    decreases |s|
  {
    if |s| > 0 {
      FilterAll(s[1..], keep);
    }
  }

  /** Filtering twice by the same predicate changes nothing more. */
  lemma {:induction false} FilterIdempotent<T(!new)>(s: seq<T>, keep: T -> bool)
    ensures Filter(Filter(s, keep), keep) == Filter(s, keep)
  {
    FilterAll(Filter(s, keep), keep);
  }

  /** `s.filter(keep).length`. */
  function Count<T(==,!new)>(s: seq<T>, keep: T -> bool): (n: nat)
    ensures n <= |s|
    ensures n == 0 <==> forall i :: 0 <= i < |s| ==> !keep(s[i])
    ensures n == |Filter(s, keep)|
    decreases |s|
  {
    if |s| == 0 then 0
    else (if keep(s[0]) then 1 else 0) + Count(s[1..], keep)
  }

  /** Taking `k` elements of `x` followed by `t` is `x` followed by `k - 1`
      elements of `t`. */
  lemma PrefixCons<T>(x: T, t: seq<T>, k: nat)
    requires k > 0
    ensures Prefix([x] + t, k) == [x] + Prefix(t, k - 1)
  {
  }

  /** The first `k` kept elements are exactly what the filter keeps from
      some prefix of `s`. */
  lemma {:induction false} FilterPrefixCut<T(!new)>(s: seq<T>, keep: T -> bool, k: nat)
    ensures exists m :: 0 <= m <= |s| && Filter(s[..m], keep) == Prefix(Filter(s, keep), k)
    decreases |s|
  {
    if k == 0 || |s| == 0 {
      assert s[..0] == [];
      assert Filter(s[..0], keep) == Prefix(Filter(s, keep), k);
    } else {
      var k' := if keep(s[0]) then k - 1 else k;
      FilterPrefixCut(s[1..], keep, k');
      var m' :| 0 <= m' <= |s[1..]| && Filter(s[1..][..m'], keep) == Prefix(Filter(s[1..], keep), k');
      var m := m' + 1;
      var head := s[..m];
      assert head[0] == s[0] && head[1..] == s[1..][..m'];
      if keep(s[0]) {
        assert Filter(head, keep) == [s[0]] + Filter(s[1..][..m'], keep);
        assert Filter(s, keep) == [s[0]] + Filter(s[1..], keep);
        PrefixCons(s[0], Filter(s[1..], keep), k);
      } else {
        assert Filter(head, keep) == Filter(s[1..][..m'], keep);
      }
      assert Filter(s[..m], keep) == Prefix(Filter(s, keep), k);
    }
  }

  /** `s.filter(keep).slice(0, k)`: the first `k` kept elements, which are
      what the filter keeps from some prefix of `s`; all of them when fewer
      than `k` are kept. */
  function FirstKept<T(==,!new)>(s: seq<T>, keep: T -> bool, k: nat): (r: seq<T>)
    ensures SubsequenceOf(r, s)
    ensures forall i :: 0 <= i < |r| ==> keep(r[i])
    ensures var n := Count(s, keep); |r| == if n < k then n else k
    ensures |r| < k ==> forall i :: 0 <= i < |s| && keep(s[i]) ==> s[i] in r
    ensures exists m :: 0 <= m <= |s| && r == Filter(s[..m], keep)
  {
    var all := Filter(s, keep);
    SubsequenceTrans(Prefix(all, k), all, s);
    FilterPrefixCut(s, keep, k);
    assert |Prefix(all, k)| < k ==> Prefix(all, k) == all;
    Prefix(all, k)
  }

  /** Position `i` holds the first element of `s` satisfying `p`. */
  predicate FirstAt<T>(s: seq<T>, p: T -> bool, i: int) {
    0 <= i < |s| && p(s[i]) && forall j :: 0 <= j < i ==> !p(s[j])
  }

  /** `s.find(p)`: the first element satisfying `p`. */
  function Find<T>(s: seq<T>, p: T -> bool): (r: Option<T>)
    ensures r.None? <==> forall i :: 0 <= i < |s| ==> !p(s[i])
    ensures r.Some? ==> r.value in s && p(r.value)
    ensures r.Some? ==> exists i :: FirstAt(s, p, i) && s[i] == r.value
    decreases |s|
  {
    if |s| == 0 then None
    else if p(s[0]) then Some(s[0])
    else Find(s[1..], p)
  }
}

=== FILE: Session.dfy ===
/** The authentication session held by `AuthProvider`: the bearer token, the
    user id, and the user record derived from the token's payload, mirrored
    to the browser's key-value store. */
module Session {

  import opened Wrappers
  import Sequences
  import JsText
  import opened Storefront

  /** The browser's `localStorage`. */
  type Store = map<string, string>

  const TokenKey := "token"
  const UserIdKey := "userId"

  /** The one account the admin gate accepts. */
  const AdminEmail := "cantonstore@gmail.com"
  const AdminRole := "admin"

  /** `localStorage.getItem(key) || ''`. */
  function GetOrEmpty(store: Store, key: string): (r: string)
    ensures key in store ==> r == store[key]
    ensures key !in store ==> r == ""
  {
    if key in store then store[key] else ""
  }

  // ---------------------------------------------------------------------
  // Token payload decoding: JSON.parse(atob(token.split('.')[1]))
  // ---------------------------------------------------------------------

  /** `s.split('.')[1]`: the text between the first and the second dot, or
      `None` (JavaScript's `undefined`) when `s` has no dot. */
  function SecondField(s: string): (r: Option<string>)
    ensures r.None? <==> '.' !in s
    ensures r.Some? ==> '.' !in r.value
  {
    match JsText.IndexOf(s, '.')
    case None => None
    case Some(i) =>
      var rest := s[i + 1..];
      match JsText.IndexOf(rest, '.')
      case None => Some(rest)
      case Some(j) => Some(rest[..j])
  }

  lemma IndexOfJoin(a: string, c: char, rest: string)
    requires c !in a
    ensures JsText.IndexOf(a + [c] + rest, c) == Some(|a|)
  {
    var s := a + [c] + rest;
    assert s[|a|] == c;
    assert forall k :: 0 <= k < |a| ==> s[k] == a[k];
  }

  /** On a JSON Web Token `header.payload.signature` the second field is the
      payload segment; the same holds when the signature part is missing. */
  lemma SecondFieldOfToken(header: string, payload: string, signature: string)
    requires '.' !in header && '.' !in payload
    ensures SecondField(header + "." + payload + "." + signature) == Some(payload)
    ensures SecondField(header + "." + payload) == Some(payload)
  {
    var s := header + "." + payload + "." + signature;
    assert s == header + ['.'] + (payload + "." + signature);
    IndexOfJoin(header, '.', payload + "." + signature);
    assert s[|header| + 1..] == payload + ['.'] + signature;
    IndexOfJoin(payload, '.', signature);
    assert (payload + ['.'] + signature)[..|payload|] == payload;
    var s2 := header + "." + payload;
    assert s2 == header + ['.'] + payload;
    IndexOfJoin(header, '.', payload);
    assert s2[|header| + 1..] == payload;
  }

  /** The ASCII whitespace the forgiving-base64 decoder strips. */
  predicate IsAsciiWhitespace(c: char) {
    c == '\t' || c == '\n' || c == '\U{C}' || c == '\r' || c == ' '
  }

  /** Step 1 of forgiving-base64 decoding: ASCII whitespace is removed, every
      other character kept in order. */
  function StripAsciiWhitespace(s: string): (r: string)
    ensures |r| <= |s|
    ensures Sequences.SubsequenceOf(r, s)
    ensures forall c :: multiset(r)[c] == if IsAsciiWhitespace(c) then 0 else multiset(s)[c]
    ensures forall i :: 0 <= i < |r| ==> !IsAsciiWhitespace(r[i])
    ensures forall i :: 0 <= i < |s| && !IsAsciiWhitespace(s[i]) ==> s[i] in r
    ensures (forall i :: 0 <= i < |s| ==> !IsAsciiWhitespace(s[i])) ==> r == s
    decreases |s|
  {
    if |s| == 0 then ""
    else
      var rest := StripAsciiWhitespace(s[1..]);
      var r := if IsAsciiWhitespace(s[0]) then rest else [s[0]] + rest;
      StripStep(s, rest, r);
      StrippedPositions(s, r);
      r
  }

  /** The contract of `StripAsciiWhitespace`: an order-preserving
      subsequence holding every non-whitespace character exactly as often as
      `s`, and nothing else. */
  predicate Stripped(s: string, r: string) {
    && |r| <= |s|
    && Sequences.SubsequenceOf(r, s)
    && (forall c :: multiset(r)[c] == if IsAsciiWhitespace(c) then 0 else multiset(s)[c])
    && ((forall i :: 0 <= i < |s| ==> !IsAsciiWhitespace(s[i])) ==> r == s)
  }

  /** One step of `StripAsciiWhitespace`: the head is dropped or kept. */
  lemma StripStep(s: string, rest: string, r: string)
    requires |s| > 0
    requires Stripped(s[1..], rest)
    requires r == if IsAsciiWhitespace(s[0]) then rest else [s[0]] + rest
    ensures Stripped(s, r)
  {
    assert s == [s[0]] + s[1..];
    if IsAsciiWhitespace(s[0]) {
      Sequences.SubsequenceCons(rest, s);
    } else {
      assert r[1..] == rest;
    }
  }

  /** What `Stripped` says about single positions. */
  lemma StrippedPositions(s: string, r: string)
    requires Stripped(s, r)
    ensures forall i :: 0 <= i < |r| ==> !IsAsciiWhitespace(r[i])
    ensures forall i :: 0 <= i < |s| && !IsAsciiWhitespace(s[i]) ==> s[i] in r
  {
    forall i | 0 <= i < |r| ensures !IsAsciiWhitespace(r[i]) {
      assert multiset(r)[r[i]] > 0;
    }
    forall i | 0 <= i < |s| && !IsAsciiWhitespace(s[i]) ensures s[i] in r {
      assert multiset(s)[s[i]] > 0;
    }
  }

  /** The base64 alphabet of section 4 of RFC 4648, without the pad. */
  predicate IsBase64Char(c: char) {
    ('A' <= c <= 'Z') || ('a' <= c <= 'z') || ('0' <= c <= '9') || c == '+' || c == '/'
  }

  /** Step 2 of forgiving-base64 decoding: when the length is a multiple of
      four, one or two trailing `=` are removed. */
  function DropPadding(s: string): (r: string)
    ensures |r| <= |s| && r == s[..|r|]
    ensures forall i :: |r| <= i < |s| ==> s[i] == '='
    ensures |s| - 2 <= |r|
    ensures |r| < |s| ==> |s| % 4 == 0
    ensures |s| % 4 == 0 && |s| - |r| < 2 && |r| > 0 ==> r[|r| - 1] != '='
  {
    if |s| % 4 == 0 && |s| >= 2 && s[|s| - 1] == '=' && s[|s| - 2] == '=' then s[..|s| - 2]
    else if |s| % 4 == 0 && |s| >= 1 && s[|s| - 1] == '=' then s[..|s| - 1]
    else s
  }

  /** Whether `atob(seg)` returns instead of throwing, following the
      forgiving-base64 decode algorithm of the HTML standard. */
  predicate AtobAccepts(seg: string) {
    var t := DropPadding(StripAsciiWhitespace(seg));
    |t| % 4 != 1 && forall i :: 0 <= i < |t| ==> IsBase64Char(t[i])
  }

  /** `atob(undefined)` decodes the nine-letter string "undefined", which
      forgiving-base64 rejects. */
  lemma UndefinedRejected()
    ensures !AtobAccepts("undefined")
  {
    UnpaddedLengthRejected("undefined");
  }

  /** A segment with no whitespace whose length leaves remainder 1 modulo 4
      is rejected: stripping and padding removal both leave it as it is. */
  lemma UnpaddedLengthRejected(seg: string)
    requires forall i :: 0 <= i < |seg| ==> !IsAsciiWhitespace(seg[i])
    requires |seg| % 4 == 1
    ensures !AtobAccepts(seg)
  {
  }

  /** A segment using the base64url letters `-` or `_` (section 5 of RFC 4648)
      is rejected by `atob`, which accepts only the section 4 alphabet. */
  lemma Base64UrlRejected(seg: string)
    requires '-' in seg || '_' in seg
    ensures !AtobAccepts(seg)
  {
    var f := StripAsciiWhitespace(seg);
    var i :| 0 <= i < |seg| && (seg[i] == '-' || seg[i] == '_');
    var t := DropPadding(f);
    assert seg[i] in f;
    var k :| 0 <= k < |f| && f[k] == seg[i];
    assert k < |t|;
    assert !IsBase64Char(t[k]);
  }

  /** The claims read from the payload (`payload?.email`, `payload?.role`). */
  datatype Claims = Claims(email: Option<string>, role: Option<string>)

  /** The payload step after `atob` accepts the segment: byte decoding and
      `JSON.parse`, left abstract; `None` is a parse failure. */
  type PayloadParser = string -> Option<Claims>

  /** The try-block of the decode: `Some` claims, or `None` when any step
      throws and the catch-branch runs. A token without a dot hands
      `undefined` to `atob`, which throws (see `UndefinedRejected`). */
  function DecodeClaims(token: string, parse: PayloadParser): (r: Option<Claims>)
    ensures '.' !in token ==> r.None?
    ensures '.' in token && !AtobAccepts(SecondField(token).value) ==> r.None?
    ensures '.' in token && AtobAccepts(SecondField(token).value) ==> r == parse(SecondField(token).value)
  {
    match SecondField(token)
    case None => None
    case Some(seg) => if AtobAccepts(seg) then parse(seg) else None
  }

  // ---------------------------------------------------------------------
  // Session state
  // ---------------------------------------------------------------------

  /** The derived `user`: `claims` is `None` for the `{ id }`-only record the
      catch-branch builds. */
  datatype User = User(id: string, claims: Option<Claims>)

  datatype State = State(token: string, userId: string, user: Option<User>)

  const Anonymous := State("", "", None)

  /** `!!token`. */
  predicate IsLoggedIn(s: State) {
    s.token != ""
  }

  /** The admin gate reads only the user record, never the token. */
  predicate IsAdmin(s: State) {
    && s.user.Some?
    && s.user.value.claims.Some?
    && s.user.value.claims.value.role == Some(AdminRole)
    && s.user.value.claims.value.email == Some(AdminEmail)
  }

  /** The user record a token and a user id give rise to. */
  function DeriveUser(token: string, id: string, parse: PayloadParser): (u: User)
    ensures u.id == id
    ensures u.claims.None? <==> DecodeClaims(token, parse).None?
    ensures u.claims == DecodeClaims(token, parse)
  {
    User(id, DecodeClaims(token, parse))
  }

  /** The user record agrees with the token: absent without one, derived from
      it otherwise. */
  predicate Consistent(s: State, parse: PayloadParser) {
    s.user == (if s.token == "" then None else Some(DeriveUser(s.token, s.userId, parse)))
  }

  /** The state `AuthProvider` starts in, read from the store. */
  function Init(store: Store, parse: PayloadParser): (s: State)
    ensures s.token == GetOrEmpty(store, TokenKey) && s.userId == GetOrEmpty(store, UserIdKey)
    ensures s.user.None? <==> !IsLoggedIn(s)
    ensures Consistent(s, parse)
  {
    var token := GetOrEmpty(store, TokenKey);
    var userId := GetOrEmpty(store, UserIdKey);
    if token == "" then State(token, userId, None)
    else State(token, userId, Some(User(userId, DecodeClaims(token, parse))))
  }

  /** `login(newToken, newUserId)`; `None` stands for `undefined`/`null`. */
  function Login(s: State, newToken: Option<string>, newUserId: Option<string>, parse: PayloadParser): (r: State)
    ensures r.token == OrEmpty(newToken) && r.userId == OrEmpty(newUserId)
    ensures !Present(newToken) ==> r.user == s.user
    ensures Present(newToken) ==> r.user == Some(DeriveUser(newToken.value, OrEmpty(newUserId), parse))
  {
    var token := OrEmpty(newToken);
    var userId := OrEmpty(newUserId);
    if Present(newToken) then State(token, userId, Some(User(userId, DecodeClaims(newToken.value, parse))))
    else State(token, userId, s.user)
  }

  /** `logout()`. */
  function Logout(s: State): (r: State)
    ensures !IsLoggedIn(r) && !IsAdmin(r)
    ensures r.userId == "" && r.user.None?
  {
    Anonymous
  }

  /** The two effects mirroring `token` and `userId` into the store: a
      non-empty value is written, an empty one removes the key. */
  function Persist(store: Store, s: State): (r: Store)
    ensures forall k :: k != TokenKey && k != UserIdKey ==> (k in r <==> k in store)
    ensures forall k :: k != TokenKey && k != UserIdKey && k in store ==> r[k] == store[k]
    ensures TokenKey in r <==> s.token != ""
    ensures UserIdKey in r <==> s.userId != ""
    ensures GetOrEmpty(r, TokenKey) == s.token && GetOrEmpty(r, UserIdKey) == s.userId
  {
    var afterToken := if s.token != "" then store[TokenKey := s.token] else store - {TokenKey};
    if s.userId != "" then afterToken[UserIdKey := s.userId] else afterToken - {UserIdKey}
  }

  // ---------------------------------------------------------------------
  // Properties
  // ---------------------------------------------------------------------

  /** A consistent state survives a reload: persisting it and starting a new
      provider on the same store gives it back. */
  lemma ReloadRestoresConsistent(store: Store, s: State, parse: PayloadParser)
    requires Consistent(s, parse)
    ensures Init(Persist(store, s), parse) == s
  {
  }

  /** Logging in with a truthy token yields a consistent, logged-in state. */
  lemma LoginKeepsConsistency(s: State, t: string, u: Option<string>, parse: PayloadParser)
    requires t != ""
    ensures Consistent(Login(s, Some(t), u, parse), parse)
    ensures IsLoggedIn(Login(s, Some(t), u, parse))
  {
  }

  /** After a login with a truthy token, the admin gate holds exactly when the
      payload decodes to the admin e-mail and the admin role. */
  lemma LoginAdminIff(s: State, t: string, u: Option<string>, parse: PayloadParser)
    requires t != ""
    ensures IsAdmin(Login(s, Some(t), u, parse))
        <==> DecodeClaims(t, parse) == Some(Claims(Some(AdminEmail), Some(AdminRole)))
  {
  }

  /** A token whose payload segment uses the base64url letters never passes
      the admin gate: the decode falls into the catch-branch. */
  lemma Base64UrlPayloadNotAdmin(s: State, t: string, u: Option<string>, parse: PayloadParser)
    requires SecondField(t).Some?
    requires '-' in SecondField(t).value || '_' in SecondField(t).value
    ensures Login(s, Some(t), u, parse).user == Some(User(OrEmpty(u), None))
    ensures !IsAdmin(Login(s, Some(t), u, parse))
  {
    Base64UrlRejected(SecondField(t).value);
  }

  /** `login` with a falsy token logs out as far as `isLoggedIn` goes but
      keeps the previous user, so a previous admin stays admin. */
  lemma FalsyLoginKeepsAdmin(s: State, t: Option<string>, u: Option<string>, parse: PayloadParser)
    requires !Present(t)
    ensures !IsLoggedIn(Login(s, t, u, parse))
    ensures IsAdmin(Login(s, t, u, parse)) == IsAdmin(s)
  {
  }

  /** The stale user of a falsy login is not what a reload derives: such a
      state is not consistent whenever a user was present. */
  lemma FalsyLoginInconsistent(s: State, t: Option<string>, u: Option<string>, parse: PayloadParser)
    requires !Present(t) && s.user.Some?
    ensures !Consistent(Login(s, t, u, parse), parse)
    ensures Init(Persist(map[], Login(s, t, u, parse)), parse).user.None?
  {
  }

  /** After `logout` the store holds neither key and a reload starts
      anonymous. */
  lemma LogoutThenReload(store: Store, s: State, parse: PayloadParser)
    ensures TokenKey !in Persist(store, Logout(s)) && UserIdKey !in Persist(store, Logout(s))
    ensures Init(Persist(store, Logout(s)), parse) == Anonymous
    ensures !IsLoggedIn(Init(Persist(store, Logout(s)), parse))
  {
  }

  /** A store without a token starts anonymous: no user, no admin. */
  lemma NoStoredTokenIsAnonymous(store: Store, parse: PayloadParser)
    requires GetOrEmpty(store, TokenKey) == ""
    ensures Init(store, parse).user.None?
    ensures !IsLoggedIn(Init(store, parse)) && !IsAdmin(Init(store, parse))
  {
  }
}

=== FILE: Storefront.dfy ===
/** The records the storefront pages receive from the backend, in the
    several shapes the pages accept for them. */
module Storefront {

  import opened Wrappers
  import opened Sequences

  /** A product's `category` field: a populated object `{_id, name}`, a bare
      id string, `null` (the populated category no longer exists), or absent. */
  datatype CategoryRef =
    | Populated(id: Option<string>, name: Option<string>)
    | CategoryId(ref: string)
    | NullCategory
    | NoCategory

  /** An entry of the category list fetched from `/categories/`. */
  datatype Category = Category(id: string, name: Option<string>)

  /** An entry of a product's legacy `images` array: an object with an
      optional `img_url`, or a bare string. */
  datatype ImageEntry = ImageObject(imgUrl: Option<string>) | ImageText(url: string)

  /** A product's `imageUrl` field: absent, a string, or an array of strings. */
  datatype ImageUrlField = NoImageUrl | ImageUrlText(text: string) | ImageUrlList(urls: seq<string>)

  datatype Review = Review(rating: real)

  /** A catalogue product. `ratingsQuantity` and `ratingsAverage` are `None`
      when the field is not a finite number. */
  datatype Product = Product(
    id: string,
    name: string,
    description: Option<string>,
    category: CategoryRef,
    imageUrl: ImageUrlField,
    images: Option<seq<ImageEntry>>,
    stock: int,
    price: int,
    ratingsQuantity: Option<int>,
    ratingsAverage: Option<real>,
    reviews: Option<seq<Review>>)

  /** An order's `user` field: an id string or a populated user document. */
  datatype UserRef = UserIdRef(ref: string) | UserDocument

  /** An order as the order endpoints return it. */
  datatype Order = Order(
    id: string,
    status: Option<string>,
    totalAmount: Option<int>,
    user: Option<UserRef>,
    shippingEmail: Option<string>)

  /** A line of the cart as the pages read it; the cart engine that builds
      and stores these lines is not part of this model. */
  datatype CartItem = CartItem(id: string, name: string, price: int, quantity: int, images: Option<seq<ImageEntry>>)

  /** The callback `c => c._id === id`. */
  function IdIs(id: string): Category -> bool {
    (c: Category) => c.id == id
  }

  /** `categories.find(c => c._id === id)`: the first category with the id. */
  function FindCategory(categories: seq<Category>, id: string): (r: Option<Category>)
    ensures r.Some? ==> r.value in categories && r.value.id == id
    ensures r.None? <==> forall i :: 0 <= i < |categories| ==> categories[i].id != id
    ensures r.Some? ==> exists i :: FirstAt(categories, IdIs(id), i) && categories[i] == r.value
  {
    Find(categories, IdIs(id))
  }

  /** JavaScript truthiness of an optional string. */
  predicate Present(o: Option<string>) {
    o.Some? && o.value != ""
  }

  /** `x || ''` for an optional string. */
  function OrEmpty(o: Option<string>): (r: string)
    ensures Present(o) ==> r == o.value
    ensures !Present(o) ==> r == ""
  {
    if Present(o) then o.value else ""
  }

  /** Truthiness of an image entry: an object always, a string when non-empty. */
  predicate ImageTruthy(e: ImageEntry) {
    e.ImageObject? || e.url != ""
  }

  /** Sum of the review ratings (`reviews.reduce((s, r) => s + r.rating, 0)`). */
  function SumRatings(rs: seq<Review>): real
    decreases |rs|
  {
    if |rs| == 0 then 0.0 else rs[0].rating + SumRatings(rs[1..])
  }

  /** Every rating lies between `lo` and `hi`. */
  predicate RatingsWithin(rs: seq<Review>, lo: real, hi: real) {
    forall i :: 0 <= i < |rs| ==> lo <= rs[i].rating <= hi
  }

  lemma {:induction false} SumRatingsBounds(rs: seq<Review>, lo: real, hi: real)
    requires RatingsWithin(rs, lo, hi)
    ensures lo * |rs| as real <= SumRatings(rs) <= hi * |rs| as real
    decreases |rs|
  {
    if |rs| > 0 {
      SumRatingsBounds(rs[1..], lo, hi);
    }
  }

  /** The arithmetic mean of a non-empty list of ratings. */
  function MeanRating(rs: seq<Review>): (m: real)
    requires |rs| > 0
    ensures m * (|rs| as real) == SumRatings(rs)
    ensures forall lo, hi :: RatingsWithin(rs, lo, hi) ==> lo <= m <= hi
  {
    var n := |rs| as real;
    forall lo, hi | RatingsWithin(rs, lo, hi) ensures lo <= SumRatings(rs) / n <= hi {
      SumRatingsBounds(rs, lo, hi);
    }
    SumRatings(rs) / n
  }
}

=== FILE: Wrappers.dfy ===
/** Optional values: JavaScript's `undefined`/`null` on the one hand and a
    present value on the other. */
module Wrappers {

  datatype Option<+T> = None | Some(value: T) {

    /** The value, or `default` when there is none (JavaScript's `x ?? d`). */
    function GetOr(default: T): T {
      match this
      case Some(v) => v
      case None => default
    }
  }
}
